=== FILE: README.md ===
# Terminal anime browser: layout core in Dafny

This project models the terminal rendering core of a small anime browser
that shows the results of The Movie Database (TMDB) in a terminal. It also
models the record mapping that feeds that core. The model is pure Dafny:
datatypes and total functions, with each Python exception or endless loop
returned as an `Errors.Fault` inside a `Result`.

- **`Pixels`** models `ImagePixels`. This is the 30-wide pixel grid, cut into
  rows by a one-shot iterator, plus the integer height `_build_image` stores.
- **`Ansi`** models the truecolor glyph written for each pixel, and a reader
  for it.
- **`TextWrap`** models `_parse_content` and `_get_content_lines`: the word
  wrapper with its `"{title}: "` prefix. It models the wrapper's two failures
  exactly as the code behaves:
  - An IndexError (`NoSpace`) when a later chunk reaches the width boundary
    with no space in it.
  - A loop that never ends (`NoProgress`) when the first chunk after the
    prefix reaches the width boundary with no space in it.

  A short last chunk needs no space. Every other line breaks after the last
  space of its window.
- **`Fields`** holds the two field tables, the dictionary lookup and the
  shape of a render. A render is either complete, or the rows written before
  an exception escaped.
- **`ListView`** models `AnimeListItemDisplayer`:
  - `_add_elipsis`.
  - The `_text_producer` state machine, with its three counters held in a
    `Cursor`.
  - `render_info`, modelled as a fold over the pixel rows.

  The displayer carries its field table, as `TextBuilder` does. The model
  computes each field's lines and release-date flag once, up front. The
  code recomputes them on every producer call, but from the same record at
  the same width, so it gets the same values each time.
- **`DetailView`** models `AnimeDetailedItemDisplayer.render_info`: the fields
  in table order, the trailers, and the centred image.
- **`NameList`** models `ListDisplayer.render_info`.
- **`Products`** models the two `get_dict` methods.
- **`TmdbService`** models the pure mapping of `services/tmdb.py`. The fetched
  payloads are parameters here.

Terminal output is a sequence of printed lines. The terminal width is a
parameter.

A few behaviours of the code are worth knowing, and the model proves each:

- A field that exactly fills its width still takes the break branch
  (`offset <= len(content)`). If the text has no space, the first line then
  hangs, as `TextWrap.ExactFitHangs` shows. If it has a space, the line
  breaks after it and the rest goes on the next line, as
  `TextWrap.ExactFitWithSpaceBreaks` shows. In general, `TextWrap.FirstCut`
  and `TextWrap.LaterCut` cut an exactly fitting window back to its last
  space unless it ends in one.
- Text with no space is never cut hard. There is no fallback cut.
- `_add_elipsis` drops no line. The lines after the marked one are kept.
  The marked line is never shortened, so it may run past the text column.
- The ellipsis index is written as a negative index,
  `max_lines - line_count - 1`. It resolves to line number `max_lines`.
- The list view prints a blank row, not an error, when the fields run out
  before the image rows do.
- Field lines beyond the last image row are never printed.
- The pixel rows are slices, so the last row may hold fewer than 30
  samples.

## Model

| member | source | states |
|---|---|---|
| Pixels.Next | src/presentation/image_builder.py:25-33 | `__next__` raises StopIteration exactly when the cursor has reached ceil(len/30); otherwise it returns 1 to 30 samples, the slice `[k*30:(k+1)*30]` clipped at the end, and advances the cursor by one |
| Pixels.Create | src/presentation/image_builder.py:8-17 | a new instance keeps its samples and height, and has every row of the samples still to give |
| Pixels.Len | src/presentation/image_builder.py:19-20 | `len()` is the number of samples, never fewer than the rows still to come |
| Pixels.Iter | src/presentation/image_builder.py:22-23 | `__iter__` returns the instance itself: a loop over it continues from where earlier `__next__` calls left it |
| Pixels.RowCountBound | src/presentation/image_builder.py:26-27 | the float test `count >= len/30` agrees with the integer row count: row k exists iff k*30 < len |
| Pixels.Drain | src/presentation/image_builder.py:22-33 | a loop over the instance yields one row per remaining row; row i is the slice at cursor+i; the samples and height are unchanged and the instance is left exhausted |
| Pixels.RowsCoverSamples | src/presentation/image_builder.py:25-33 | a fresh grid yields ceil(len/30) rows; row i is `pixels[i*30:(i+1)*30]`; every row but the last is full; the rows concatenate back to the samples |
| Pixels.DrainFlattens | src/presentation/image_builder.py:30-33 | the rows still to come concatenate to the samples from the cursor's row on |
| Pixels.DrainIgnoresHeight | src/presentation/image_builder.py:6-7 | the rows depend only on the samples and the class-wide width 30, not on the per-instance height |
| Pixels.OneShot | src/presentation/image_builder.py:22-28 | once drained, `__iter__` hands back the exhausted instance: `next` stops again and a second loop yields nothing |
| Pixels.LenCountsSamples | src/presentation/image_builder.py:19-20 | `len()` counts samples, not rows, so with two or more samples it exceeds the row count |
| Pixels.BuildImage | src/presentation/image_builder.py:56-59 | the stored height is floor(len/30) |
| Pixels.HeightMatchesRows | src/presentation/image_builder.py:56-59 | the stored height never exceeds the rows iterated, and equals them exactly when len is a multiple of 30 |
| Ansi.Glyph | src/presentation/anime_info_displayers.py:161 | a glyph opens with the 24-bit foreground escape and ends with `o` and the reset |
| Ansi.Glyphs | src/presentation/anime_info_displayers.py:224-225 | a pixel row writes nothing exactly when it has no samples; what it writes is stated by `Ansi.GlyphsPerSample` |
| Ansi.GlyphsPerSample | src/presentation/anime_info_displayers.py:160-161 | a pixel row writes one glyph per sample, in order, side by side: the row's text is the concatenation of its samples' glyphs |
| Ansi.GlyphRoundTrip | src/presentation/anime_info_displayers.py:224-225 | reading a glyph gives back exactly the r, g and b it was written with |
| Strings.ReplaceNewlines | src/presentation/anime_info_displayers.py:33-35 | `replace('\n', ' ')` keeps the length and changes only newlines, each into a space |
| Strings.JoinAppend | src/presentation/anime_info_displayers.py:32 | `', '.join` of two non-empty lists is the two joins with one separator between them |
| Strings.Repeat | src/presentation/anime_info_displayers.py:159 | `c * n` is max(n, 0) copies of c |
| Strings.DecimalRoundTrip | src/presentation/anime_info_displayers.py:35 | `str` of a non-negative int reads back as the same number |
| TextWrap.ParseContent | src/presentation/anime_info_displayers.py:31-35 | a list is joined with ", " and anything else goes through `str`; the text keeps its length with every newline turned into a space; joining non-string items is a TypeError exactly when there is one |
| TextWrap.ParseContentKeepsCleanText | src/presentation/anime_info_displayers.py:31-35 | text without a newline comes through unchanged |
| TextWrap.Prefix | src/presentation/anime_info_displayers.py:44 | the prefix is the title, a colon and a space, two characters longer than the title |
| TextWrap.LastSpace | src/presentation/anime_info_displayers.py:55-57 | the backward scan finds the last space before the cut, or shows there is none before the start of the line |
| TextWrap.FirstCut | src/presentation/anime_info_displayers.py:49-61 | the first line is the prefix and a chunk of the content, at most `padding` wide, ending in a space unless it is the last. It takes the whole window exactly when the window passes the end or ends in a space. A window that fits exactly but ends in anything else is cut back after its last space. The cursor returns to 0 exactly when the first chunk reaches the boundary with no space |
| TextWrap.LaterCut | src/presentation/anime_info_displayers.py:49-61 | a later line is a slice of the content, at most `padding` wide, ending in a space unless it is the last, and the cursor moves forward. It takes the whole window exactly when the window passes the end or ends in a space. A window that fits exactly but ends in anything else is cut back after its last space. The scan runs off (IndexError) exactly when the chunk reaches the boundary with no space |
| TextWrap.WrapFrom | src/presentation/anime_info_displayers.py:48-63 | the loop from a cursor: every line is non-empty and at most `padding` wide, and every line but the last ends with a space; failures are only NoSpace or NoProgress |
| TextWrap.WrapRoundTrip | src/presentation/anime_info_displayers.py:44-63 | the lines concatenate to exactly the prefix (first line only) followed by the content from the cursor on; the first line starts with the prefix |
| TextWrap.WrapGreedy | src/presentation/anime_info_displayers.py:48-63 | after every line but the last, the text still to come reaches the end of the line's window and holds no space in it: each line ends at its window's last space |
| TextWrap.WrapFaults | src/presentation/anime_info_displayers.py:54-63 | the loop hangs only on its first pass, exactly when the first chunk reaches the boundary with no space; an IndexError always comes from a later chunk without a space |
| TextWrap.ContentLines | src/presentation/anime_info_displayers.py:37-65 | normalise then wrap: empty content gives no lines, not even the prefix; otherwise the first line starts with `"{title}: "` and the lines concatenate to prefix + normalised text; lines are at most `padding` wide and space-ended, and each break comes after the last space its window allows; the last line is shorter than `padding` or ends in a space |
| TextWrap.WrapWhole | src/presentation/anime_info_displayers.py:43-65 | the whole loop gives no lines exactly for empty content, and otherwise the prefixed round trip |
| TextWrap.WrapLastLine | src/presentation/anime_info_displayers.py:49-61 | the last line the loop emits was never cut back: it is shorter than `padding`, or it fills the width and ends in a space |
| TextWrap.SingleLineFits | src/presentation/anime_info_displayers.py:49-54 | text shorter than the room beside the prefix is one line, prefix + text |
| TextWrap.ExactFitHangs | src/presentation/anime_info_displayers.py:54 | a field that fills the width exactly still breaks and hangs: ("ID", "12345") at width 9 |
| TextWrap.ExactFitWithSpaceBreaks | src/presentation/anime_info_displayers.py:49-61 | an exact fit with a space in it does not hang: ("ID", "12 45") at width 9 is "ID: 12 " then "45" |
| TextWrap.ShortFieldOneLine | src/presentation/anime_info_displayers.py:43-65 | ("ID", "12345") at width 20 is the single line "ID: 12345" |
| TextWrap.NoHardCut | src/presentation/anime_info_displayers.py:54-63 | forty letters with no space at width 10 are not cut hard: the first line hangs |
| TextWrap.BlockedLaterChunkFails | src/presentation/anime_info_displayers.py:55-57 | a later chunk reaching the boundary with no space ends the loop with the scan's IndexError |
| Fields.ListPrefixesFit | src/presentation/anime_info_displayers.py:67-93 | every list-table prefix fits a width exactly when the width is at least 14 |
| Fields.DetailedPrefixesFit | src/presentation/anime_info_displayers.py:95-116 | every prefix of the combined table fits a width exactly when the width is at least 19 |
| Fields.TablesMatchDicts | src/presentation/anime_info_displayers.py:67-116 | every key the tables name is a key of the matching `get_dict`, and every list field allows at least one line |
| Fields.Lookup | src/presentation/anime_info_displayers.py:211 | `anime_inf[key]` is the stored value when present, else KeyError naming the key |
| Fields.TableLayout | src/presentation/anime_info_displayers.py:66-131 | the detailed displayer's table is the list table followed by the detail table; no key is named twice; in the list table only the fourth field is the release date |
| ListView.AddEllipsis | src/presentation/anime_info_displayers.py:188-199 | unchanged when the lines fit `max_lines`; otherwise line number `max_lines` gets "..." appended and every other line and the count stay; with `max_lines` below 1 the negative index is an IndexError |
| ListView.EllipsisIgnoresWidth | src/presentation/anime_info_displayers.py:195-199 | both width branches give the same result |
| ListView.EllipsisCanOverflow | src/presentation/anime_info_displayers.py:195-199 | the marked line may exceed the text width: "abcd " becomes "abcd ..." at width 5 |
| ListView.FieldLines | src/presentation/anime_info_displayers.py:209-214 | a field's list-view lines are its wrapped lines, same count, each non-empty and at most width + 3; a missing key is KeyError and a wrapper failure passes through; a field within its limit is left as wrapped; over the limit, line number `max_lines` gets "..." and every other line is kept, or IndexError when `max_lines` is below 1 |
| ListView.FieldLinesEmpty | src/presentation/anime_info_displayers.py:209-215 | a field gives no lines only when its key is present and its text is empty; its lines fail with IndexError only when `max_lines` is below 1 |
| ListView.FieldTable | src/presentation/anime_info_displayers.py:204-214 | one entry per field of the table; no line any field gives is blank |
| ListView.FieldTableEntries | src/presentation/anime_info_displayers.py:204-214 | entry i of the table is field i's own list-view lines at the table's width |
| ListView.TextProducer | src/presentation/anime_info_displayers.py:201-220 | blank once every field is done; blank with nothing moved while the release date waits for the last two image rows, and blank in no other case; otherwise the current line of the current field, moving to the next line or, after the last, to the next field; the field's own exception, or IndexError past its lines |
| ListView.Produce | src/presentation/anime_info_displayers.py:222-230 | k rows without an exception give k text values and `_lines_printed` grows by exactly k; an exception stops the loop before k values, and it is the exception the producer raises at the cursor where the loop stopped |
| ListView.ProducerStep | src/presentation/anime_info_displayers.py:215-220 | one step keeps the cursor inside the field lines and consumes exactly the line it yields, or nothing for a blank |
| ListView.ProduceKeepsInv | src/presentation/anime_info_displayers.py:201-230 | over any number of rows, completed or cut short, the counters stay inside the field lines |
| ListView.ProduceKeepsOrder | src/presentation/anime_info_displayers.py:201-230 | over any number of rows, completed or cut short, the non-blank text is the next field lines in order, none skipped or repeated |
| ListView.ProducedTextInOrder | src/presentation/anime_info_displayers.py:201-230 | from fresh counters, the printed text is exactly the field lines before the cursor, so a prefix of all field lines in table order; lines past the last row are never reached |
| ListView.ProducerIndexError | src/presentation/anime_info_displayers.py:188-192 | the producer's IndexError at a reachable position comes from a field with no lines, or from a `max_lines` below 1 |
| ListView.ProduceFaults | src/presentation/anime_info_displayers.py:201-230 | when no field's lines fail but in the wrapper, the loop stops only by NoSpace, NoProgress, or the IndexError of a field with no lines |
| ListView.RenderRows | src/presentation/anime_info_displayers.py:223-229 | one row per pixel row, each starting with that row's glyphs and a bar; an exception leaves that row's glyphs and bar written, and it is the producer's exception |
| ListView.ListTableFits | src/presentation/anime_info_displayers.py:11-26 | with the list table, every prefix fits the text column beside the 31-column image exactly when the terminal has at least 45 columns |
| ListView.ViewOf | src/presentation/anime_info_displayers.py:20-29 | the view has one wait flag per field of the table and satisfies the producer's invariant; its height is the image's stored height |
| ListView.ViewOfWaits | src/presentation/anime_info_displayers.py:205-207 | a field waits for the image exactly when its key is `release_date` |
| ListView.ViewOfLines | src/presentation/anime_info_displayers.py:20-29 | the producer reads field i's list-view lines at the width `columns - 31`, the terminal width less the 31-column image |
| ListView.RenderListItem | src/presentation/anime_info_displayers.py:222-231 | a completed render is one row per remaining pixel row, each starting with that row's glyphs and a bar, then `'-' * columns`; an aborted one wrote fewer rows, then the next pixel row's glyphs and the bar, and stops with the exception the text producer raised |
| ListView.ListItemRows | src/presentation/anime_info_displayers.py:222-231 | each row is its pixel row's glyphs, a bar and the next text value; the render completes exactly when the producer never raises |
| ListView.ListItemTextInOrder | src/presentation/anime_info_displayers.py:201-231 | the non-blank text of a render, complete or cut short, is a prefix of the field lines in table order |
| ListView.ViewFaults | src/presentation/anime_info_displayers.py:31-35 | on a record holding every table key, none of them trailer records, with every `max_lines` at least 1, a field's lines fail only in the wrapper |
| ListView.ListDictReadable | src/products/tmdb.py:27-35 | a `get_dict` dictionary holds every list field, none of them trailer records |
| ListView.ReadableFaults | src/presentation/anime_info_displayers.py:201-231 | on such a record a render stops only by NoSpace, NoProgress, or an empty field's IndexError |
| ListView.ListItemFaults | src/presentation/anime_info_displayers.py:167-231 | for a dict made by `get_dict` and at least 45 columns, no lookup or join fails: a render stops only by NoSpace, NoProgress or an empty field |
| Ansi.GlyphRows | src/presentation/anime_info_displayers.py:223-225 | one glyph string per pixel row, each that row's glyphs |
| DetailView.TrailerLines | src/presentation/anime_info_displayers.py:143-145 | one `"{name}: {link}"` line per trailer, in order; non-trailer values are a TypeError unless empty |
| DetailView.TrailerLinesFollowList | src/presentation/anime_info_displayers.py:144-145 | the trailer lines distribute over concatenation of the trailer list |
| DetailView.FieldBlock | src/presentation/anime_info_displayers.py:140-154 | the trailers print `"{title}:"` then their lines; other fields print their wrapped lines at the full width, with no ellipsis; a missing key is KeyError, and for the trailers that comes after the heading, which is then the only row; a trailers value that is not a list of trailer records prints only the heading and raises TypeError, unless it is an empty string or list, which prints just the heading |
| DetailView.RenderFields | src/presentation/anime_info_displayers.py:140-154 | no fields print nothing; one field prints exactly its block; a failure is an exception raised between lines |
| DetailView.RenderFieldsBlocks | src/presentation/anime_info_displayers.py:140-154 | the text completes exactly when every field's block completes, and then it is the blocks' rows one after another, in table order |
| DetailView.RenderFieldsAbortAt | src/presentation/anime_info_displayers.py:140-154 | when field k is the first whose block fails, the text is the earlier blocks' rows, then what field k printed, and it raises field k's exception |
| DetailView.RenderFieldsAppend | src/presentation/anime_info_displayers.py:128-131 | printing a table in two parts is the first part, then the second if the first completed |
| DetailView.RenderFieldsIgnoreMaxLines | src/presentation/anime_info_displayers.py:139-154 | `max_lines` is never consulted: tables differing only in it print the same |
| DetailView.RenderFieldsFaults | src/presentation/anime_info_displayers.py:139-154 | on a record whose trailers field alone holds trailers, the text fails only in the wrapper |
| DetailView.BlankOffset | src/presentation/anime_info_displayers.py:156-157 | `int(cols/2 - 15)` truncated toward zero: the image and its two offsets fill the width to within one column; a narrow terminal gets no positive offset |
| DetailView.ImageRow | src/presentation/anime_info_displayers.py:158-162 | an image line is the offset in spaces, the glyphs, and the same offset in spaces again |
| DetailView.ImageRowCentred | src/presentation/anime_info_displayers.py:156-162 | the padding is max(0, floor((cols-30)/2)) and centres a full row to within one column |
| DetailView.DetailText | src/presentation/anime_info_displayers.py:139-154 | the text before the image is the combined table, every prefix fitting, each field wrapped at the full terminal width |
| DetailView.RenderDetails | src/presentation/anime_info_displayers.py:139-162 | the text, then one centred line per remaining pixel row; the image is printed only when the text completes |
| DetailView.DetailTextSplits | src/presentation/anime_info_displayers.py:128-131 | the list fields print first, then the detail fields |
| DetailView.DetailDictReadable | src/products/tmdb.py:69-77 | in a detail dict, every table key is present and only "trailers" holds trailer records |
| DetailView.DetailFaults | src/presentation/anime_info_displayers.py:139-154 | for a dict made by the detail `get_dict`, a render stops only by NoSpace or NoProgress |
| NameList.RenderNames | src/presentation/anime_info_displayers.py:241-244 | the heading "Genres:" and one `"- {item}"` line per item |
| NameList.NamesRoundTrip | src/presentation/anime_info_displayers.py:243-244 | removing the bullets gives back every item, in order |
| NameList.NameIgnored | src/presentation/anime_info_displayers.py:237-242 | the `name` attribute is never printed |
| Products.GetDict | src/products/tmdb.py:27-35 | the list dict has exactly the keys api_id, title, overview, genres, cover_url, release_date |
| Products.GetDetailDict | src/products/tmdb.py:69-77 | the detail dict is the base keys plus status, trailers, seasons_count, episodes_count; base values unchanged; seasons_count is the constructor argument |
| Products.DictRoundTrip | src/products/tmdb.py:11-35 | every constructor argument is stored under its key and can be read back whole |
| Products.DetailDictRoundTrip | src/products/tmdb.py:56-77 | the detail dict gives back the whole detail record, seasons count included |
| TmdbService.GenreNames | src/services/tmdb.py:154 | a name is listed iff some genre-table entry with that name has an id the anime lists; no more names than table entries |
| TmdbService.GenreNamesFollowTable | src/services/tmdb.py:154 | names follow genre-table order: splitting the table splits the result |
| TmdbService.GenreNamesIgnoreIdOrder | src/services/tmdb.py:154 | the order and repetition of `genre_ids` do not matter |
| TmdbService.UnknownGenreIdDropped | src/services/tmdb.py:154 | an id no table entry carries is dropped |
| TmdbService.ListItem | src/services/tmdb.py:150-157 | id, name, overview and air date are carried over; a genre name is listed exactly when some table entry with that name has an id the anime lists; cover_url is the image base URI followed by `poster_path` |
| TmdbService.ParseFetchedAnimes | src/services/tmdb.py:148-159 | one dict per anime, in input order, each reading back as that anime's record |
| TmdbService.GetAnimeList | src/services/tmdb.py:41-55 | the page numbers are carried over; the list has one entry per result, and entry i reads back as the record built from result i |
| TmdbService.YouTubeTrailers | src/services/tmdb.py:83-90 | only YouTube videos, each with link = watch URI + key, and every YouTube video is kept |
| TmdbService.YouTubeTrailersKeepOrder | src/services/tmdb.py:83-90 | the filter keeps video order |
| TmdbService.TrailerKeysRecoverable | src/services/tmdb.py:85 | every link is the watch URI followed by a YouTube video's key |
| TmdbService.AnimeDetails | src/services/tmdb.py:73-92 | the detail dict reads back with the id, name, overview, air date and status of the payload, all genre names in payload order, the counts, the YouTube trailers and the cover URL |
| TmdbService.GetAnimeListByName | src/services/tmdb.py:94-99 | always an empty list, page 0 of 0 |
| TmdbService.RaiseForStatus | src/services/tmdb.py:167-176 | raises iff status >= 400, with message `res_body["status_message"]` and a context holding status, url, req_body and res_body unchanged; a missing message key is a KeyError |

## Left out

- Terminal I/O: `print`, `stdout.write` and `os.get_terminal_size`. The output is a list of printed lines. The terminal width is a parameter.
- Decoding and resizing the image with PIL, and the float aspect-ratio height. This is a foreign library and floating point. The pixel list is the input.
- HTTP fetching, request headers and `asyncio.gather`. These include `_fetch`, `get_genres_list` and `_fetch_animes`. The fetched payloads are parameters.
- The database service, the models and DTOs, the argument parsers, the PNG-chunk debug walker, the older HTTP service, `main.py`, the interfaces and the utilities. These are glue outside the rendering core.
- `_convert_genre_filter` and the other signatures the tests call but the source does not define.
- Repeated `render_info` calls on one displayer. The counters start from class-level zeros. The first `+=` makes them instance attributes, so they persist per displayer. More to the point, the image iterator is already spent after one call. Each render is modelled once, from fresh counters.
- The StopIteration branch of `_get_next_anime_info`. It cannot be reached, because `_text_producer` checks the same condition first.
- Pixel tuples with other than three channels. A `for r, g, b` over them would raise. Samples are RGB with channels 0 to 255.
- TextWrap.WrapFrom: requires `padding >= len(title) + 2`. Below that the first offset is negative, Python's negative slice indices take over, and the failure labels no longer describe the behaviour.
- TextWrap.ContentLines: requires `padding >= len(title) + 2`, for the same reason.
- ListView.RenderListItem: requires every prefix of the displayer's table to fit in the text column beside the 31-column image. For the list table this means at least 45 columns, as `ListView.ListTableFits` shows. Narrower terminals reach the negative-index behaviour above.
- DetailView.RenderDetails: requires a terminal at least 19 columns wide, the widest prefix of the combined table, for the same reason.
- Pixels.Next: the source compares the cursor with a float quotient `len/30`. The model compares exact rationals. The two agree for any list shorter than 2^53 samples.
- TmdbService.RaiseForStatus: `response.url.human_repr()` is given as a string, and the response bodies as maps with an arbitrary value type.

=== FILE: ansi.dfy ===
/**
 The truecolor glyph both renderers write for one pixel,
 `f"\033[38;2;{r};{g};{b}mo\033[0m"`, and a reader for it: the terminal
 gets back exactly the three channels it was sent.
 */
module Ansi {
  import opened Errors
  import opened Strings
  import opened Pixels

  /** `ESC[38;2;`: set a 24-bit foreground colour. */
  const GlyphHead: string := "\U{1B}[38;2;"

  /** The glyph character `o` and the reset `ESC[0m`. */
  const GlyphTail: string := "mo\U{1B}[0m"

  function Glyph(p: Pixel): (s: string)
    ensures StartsWith(s, GlyphHead)
    ensures |s| > |GlyphHead| + |GlyphTail| && s[|s| - |GlyphTail|..] == GlyphTail
  {
    var s := GlyphHead + NatToString(p.r) + ";" + NatToString(p.g) + ";" + NatToString(p.b) + GlyphTail;
    assert s[..|GlyphHead|] == GlyphHead;
    s
  }

  /** One pixel row: the glyphs of its samples side by side. */
  function Glyphs(row: seq<Pixel>): (s: string)
    ensures s == "" <==> row == []
  {
    if |row| == 0 then "" else Glyph(row[0]) + Glyphs(row[1..])
  }

  /** A row's glyph string is one glyph per sample, in sample order, and nothing else. */
  lemma {:induction false} GlyphsPerSample(row: seq<Pixel>)
    ensures Glyphs(row) == Flatten(seq(|row|, i requires 0 <= i < |row| => Glyph(row[i])))
  {
    if |row| > 0 {
      var each := seq(|row|, i requires 0 <= i < |row| => Glyph(row[i]));
      assert each[1..] == seq(|row| - 1, i requires 0 <= i < |row| - 1 => Glyph(row[1..][i]));
      GlyphsPerSample(row[1..]);
    }
  }

  /** The glyph string of each row. */
  function GlyphRows(rows: seq<seq<Pixel>>): (g: seq<string>)
    ensures |g| == |rows| && forall i :: 0 <= i < |rows| ==> g[i] == Glyphs(rows[i])
  {
    seq(|rows|, i requires 0 <= i < |rows| => Glyphs(rows[i]))
  }

  /** Splits `s` at its first `sep`: the text before it and the text after it. */
  function SplitFirst(s: string, sep: char): Option<(string, string)> {
    if |s| == 0 then None
    else if s[0] == sep then Some(("", s[1..]))
    else
      match SplitFirst(s[1..], sep)
      case None => None
      case Some(parts) => Some(([s[0]] + parts.0, parts.1))
  }

  lemma {:induction false} SplitFirstAfter(a: string, sep: char, b: string)
    requires forall i :: 0 <= i < |a| ==> a[i] != sep
    ensures SplitFirst(a + [sep] + b, sep) == Some((a, b))
  {
    if |a| > 0 {
      assert (a + [sep] + b)[1..] == a[1..] + [sep] + b;
      SplitFirstAfter(a[1..], sep, b);
      assert [a[0]] + a[1..] == a;
    } else {
      assert a + [sep] + b == [sep] + b;
    }
  }

  /** A channel written in decimal: non-empty digits denoting at most 255. */
  function ParseChannel(s: string): Option<Channel> {
    if 0 < |s| && IsDigits(s) && DecimalValue(s) < 256 then Some(DecimalValue(s)) else None
  }

  /** Reads the pixel a glyph encodes; None for text that is not one glyph. */
  function ParseGlyph(s: string): Option<Pixel> {
    if |s| < |GlyphHead| + |GlyphTail| || s[..|GlyphHead|] != GlyphHead || s[|s| - |GlyphTail|..] != GlyphTail
    then None
    else
      var body := s[|GlyphHead| .. |s| - |GlyphTail|];
      match SplitFirst(body, ';')
      case None => None
      case Some(rg) =>
        match SplitFirst(rg.1, ';')
        case None => None
        case Some(gb) =>
          match (ParseChannel(rg.0), ParseChannel(gb.0), ParseChannel(gb.1))
          case (Some(r), Some(g), Some(b)) => Some(Pixel(r, g, b))
          case _ => None
  }

  /** Decoding a glyph gives back the pixel it was written for. */
  lemma GlyphRoundTrip(p: Pixel)
    ensures ParseGlyph(Glyph(p)) == Some(p)
  {
    var r, g, b := NatToString(p.r), NatToString(p.g), NatToString(p.b);
    var s := Glyph(p);
    assert s == GlyphHead + (r + [';'] + (g + [';'] + b)) + GlyphTail;
    var body := s[|GlyphHead| .. |s| - |GlyphTail|];
    assert body == r + [';'] + (g + [';'] + b);
    SplitFirstAfter(r, ';', g + [';'] + b);
    SplitFirstAfter(g, ';', b);
    DecimalRoundTrip(p.r);
    DecimalRoundTrip(p.g);
    DecimalRoundTrip(p.b);
  }
}

=== FILE: detail_view.dfy ===
/**
 `AnimeDetailedItemDisplayer.render_info` (presentation/anime_info_displayers.py):
 every field of the list table and then of the detail table, wrapped at
 the full terminal width with no line limit, the trailers as `name: link`
 lines, and then the cover image centred below the text.
 */
module DetailView {
  import opened Errors
  import opened Strings
  import opened Products
  import opened TextWrap
  import opened Pixels
  import opened Ansi
  import opened Fields

  /** The narrowest terminal that holds every wrapped prefix, `"Number of seasons: "`. */
  const MinDetailColumns: int := 19

  /**
   The inner loop over the trailers value: one `name: link` line each. A
   string or a list of strings is iterable but its items cannot be indexed
   by "name" (a TypeError unless there is no item); an int is not iterable.
   */
  function TrailerLines(v: Value): (r: Result<seq<string>>)
    ensures r.Err? <==> !v.VTrailers? && v != VStr("") && v != VStrList([])
    ensures r.Err? ==> r.fault == TypeError
    ensures r.Ok? && !v.VTrailers? ==> r.value == []
    ensures v.VTrailers? ==>
              && r.Ok? && |r.value| == |v.trailers|
              && forall i :: 0 <= i < |v.trailers| ==> r.value[i] == v.trailers[i].name + ": " + v.trailers[i].link
  {
    match v
    case VTrailers(ts) => Ok(seq(|ts|, i requires 0 <= i < |ts| => ts[i].name + ": " + ts[i].link))
    case VStr(s) => if s == "" then Ok([]) else Err(TypeError)
    case VStrList(items) => if items == [] then Ok([]) else Err(TypeError)
    case VInt(_) => Err(TypeError)
  }

  /** The trailer lines follow the list: splitting the trailers splits the lines the same way. */
  lemma TrailerLinesFollowList(a: seq<Trailer>, b: seq<Trailer>)
    ensures TrailerLines(VTrailers(a + b)).value
            == TrailerLines(VTrailers(a)).value + TrailerLines(VTrailers(b)).value
  {
  }

  /** Every field other than the trailers has its prefix fit the terminal width. */
  predicate TextPrefixesFit(fields: seq<FieldSpec>, columns: int) {
    forall i :: 0 <= i < |fields| ==> fields[i].key != "trailers" ==> |Prefix(fields[i].title)| <= columns
  }

  /**
   The lines one field prints: the trailers under a `"{title}:"` heading,
   any other field wrapped at the full width, `max_lines` not consulted.
   */
  function FieldBlock(record: Dict, f: FieldSpec, columns: int): (r: Rendered)
    requires f.key != "trailers" ==> |Prefix(f.title)| <= columns
    ensures r.Aborted? ==> r.pending == ""
    ensures f.key !in record ==> r.Aborted? && r.fault == KeyError(f.key)
    ensures f.key == "trailers" ==> 1 <= |r.rows| && r.rows[0] == f.title + ":"
    ensures f.key == "trailers" && f.key !in record ==> r == Aborted([f.title + ":"], "", KeyError(f.key))
    ensures f.key == "trailers" && f.key in record && !record[f.key].VTrailers? ==>
              if record[f.key] == VStr("") || record[f.key] == VStrList([]) then r == Complete([f.title + ":"])
              else r == Aborted([f.title + ":"], "", TypeError)
    ensures f.key == "trailers" && f.key in record && record[f.key].VTrailers? ==>
              && r.Complete? && |r.rows| == |record[f.key].trailers| + 1
              && forall i :: 0 <= i < |record[f.key].trailers| ==>
                   r.rows[i + 1] == record[f.key].trailers[i].name + ": " + record[f.key].trailers[i].link
    ensures f.key != "trailers" && f.key in record ==>
              match ContentLines(f.title, record[f.key], columns)
              case Ok(lines) => r == Complete(lines)
              case Err(e) => r == Aborted([], "", e)
  {
    if f.key == "trailers" then
      var head := [f.title + ":"];
      match Lookup(record, f.key)
      case Err(e) => Aborted(head, "", e)
      case Ok(value) =>
        match TrailerLines(value)
        case Err(e) => Aborted(head, "", e)
        case Ok(lines) => Complete(head + lines)
    else
      match Lookup(record, f.key)
      case Err(e) => Aborted([], "", e)
      case Ok(value) =>
        match ContentLines(f.title, value, columns)
        case Err(e) => Aborted([], "", e)
        case Ok(lines) => Complete(lines)
  }

  /** `first`, and when it completed, `rest` printed after it. */
  function Then(first: Rendered, rest: Rendered): (r: Rendered)
    ensures first.Aborted? ==> r == first
    ensures first.Complete? ==> r.Complete? == rest.Complete? && r.rows == first.rows + rest.rows
  {
    match first
    case Complete(rows) => Prepend(rows, rest)
    case Aborted(_, _, _) => first
  }

  lemma ThenAssociative(x: Rendered, y: Rendered, z: Rendered)
    ensures Then(x, Then(y, z)) == Then(Then(x, y), z)
  {
    if x.Complete? && y.Complete? {
      assert x.rows + (y.rows + z.rows) == (x.rows + y.rows) + z.rows;
    }
  }

  /** The text part of `render_info`: the fields' blocks one after another, up to the first failure. */
  function RenderFields(record: Dict, fields: seq<FieldSpec>, columns: int): (r: Rendered)
    requires TextPrefixesFit(fields, columns)
    ensures |fields| == 0 ==> r == Complete([])
    ensures |fields| == 1 ==> r == FieldBlock(record, fields[0], columns)
    ensures r.Aborted? ==> r.pending == ""
  {
    if |fields| == 0 then Complete([])
    else Then(FieldBlock(record, fields[0], columns), RenderFields(record, fields[1..], columns))
  }

  /**
   Printing a table in two parts is printing the first part and, if it
   completed, the second after it.
   */
  lemma {:induction false} RenderFieldsAppend(record: Dict, a: seq<FieldSpec>, b: seq<FieldSpec>, columns: int)
    requires TextPrefixesFit(a, columns) && TextPrefixesFit(b, columns)
    ensures TextPrefixesFit(a + b, columns)
    ensures RenderFields(record, a + b, columns) == Then(RenderFields(record, a, columns), RenderFields(record, b, columns))
  {
    assert forall i :: 0 <= i < |a + b| ==> (a + b)[i] == if i < |a| then a[i] else b[i - |a|];
    if |a| == 0 {
      assert a + b == b;
      assert [] + RenderFields(record, b, columns).rows == RenderFields(record, b, columns).rows;
    } else {
      assert (a + b)[0] == a[0];
      assert (a + b)[1..] == a[1..] + b;
      assert forall i :: 0 <= i < |a[1..]| ==> a[1..][i] == a[i + 1];
      RenderFieldsAppend(record, a[1..], b, columns);
      ThenAssociative(FieldBlock(record, a[0], columns), RenderFields(record, a[1..], columns), RenderFields(record, b, columns));
    }
  }

  /** Blocks printed one after another, up to the first that fails. */
  function Sequence(blocks: seq<Rendered>): Rendered {
    if |blocks| == 0 then Complete([]) else Then(blocks[0], Sequence(blocks[1..]))
  }

  /** The rows each block printed, block by block. */
  function RowsOf(blocks: seq<Rendered>): (rows: seq<seq<string>>)
    ensures |rows| == |blocks| && forall i :: 0 <= i < |blocks| ==> rows[i] == blocks[i].rows
  {
    seq(|blocks|, i requires 0 <= i < |blocks| => blocks[i].rows)
  }

  lemma {:induction false} SequenceBlocks(blocks: seq<Rendered>)
    ensures Sequence(blocks).Complete? <==> forall i :: 0 <= i < |blocks| ==> blocks[i].Complete?
    ensures Sequence(blocks).Complete? ==> Sequence(blocks).rows == Flatten(RowsOf(blocks))
  {
    if |blocks| > 0 {
      assert RowsOf(blocks)[1..] == RowsOf(blocks[1..]);
      SequenceBlocks(blocks[1..]);
    }
  }

  lemma {:induction false} SequenceAbortAt(blocks: seq<Rendered>, k: int)
    requires 0 <= k < |blocks| && blocks[k].Aborted?
    requires forall i :: 0 <= i < k ==> blocks[i].Complete?
    ensures Sequence(blocks) == Aborted(Flatten(RowsOf(blocks)[..k]) + blocks[k].rows, blocks[k].pending, blocks[k].fault)
  {
    if k == 0 {
      assert RowsOf(blocks)[..0] == [];
    } else {
      assert RowsOf(blocks)[1..] == RowsOf(blocks[1..]);
      SequenceAbortAt(blocks[1..], k - 1);
      FlattenPrefix(RowsOf(blocks), k);
    }
  }

  /** Each field's block, in table order. */
  function Blocks(record: Dict, fields: seq<FieldSpec>, columns: int): (b: seq<Rendered>)
    requires TextPrefixesFit(fields, columns)
    ensures |b| == |fields| && forall i :: 0 <= i < |fields| ==> b[i] == FieldBlock(record, fields[i], columns)
  {
    seq(|fields|, i requires 0 <= i < |fields| && (fields[i].key != "trailers" ==> |Prefix(fields[i].title)| <= columns) =>
                    FieldBlock(record, fields[i], columns))
  }

  /** The text part is its fields' blocks in sequence. */
  lemma {:induction false} RenderFieldsSequence(record: Dict, fields: seq<FieldSpec>, columns: int)
    requires TextPrefixesFit(fields, columns)
    ensures RenderFields(record, fields, columns) == Sequence(Blocks(record, fields, columns))
  {
    if |fields| > 0 {
      assert forall i :: 0 <= i < |fields| - 1 ==> fields[1..][i] == fields[i + 1];
      assert Blocks(record, fields, columns)[1..] == Blocks(record, fields[1..], columns);
      RenderFieldsSequence(record, fields[1..], columns);
    }
  }

  /**
   The text part completes exactly when every field's block does, and then
   it is the blocks' rows one after another, in table order.
   */
  lemma RenderFieldsBlocks(record: Dict, fields: seq<FieldSpec>, columns: int)
    requires TextPrefixesFit(fields, columns)
    ensures RenderFields(record, fields, columns).Complete? <==>
              forall i :: 0 <= i < |fields| ==> FieldBlock(record, fields[i], columns).Complete?
    ensures RenderFields(record, fields, columns).Complete? ==>
              RenderFields(record, fields, columns).rows == Flatten(RowsOf(Blocks(record, fields, columns)))
  {
    RenderFieldsSequence(record, fields, columns);
    SequenceBlocks(Blocks(record, fields, columns));
  }

  /**
   When block k is the first to fail, the text part is the blocks before it,
   then what block k printed, and it raises block k's exception.
   */
  lemma RenderFieldsAbortAt(record: Dict, fields: seq<FieldSpec>, columns: int, k: int)
    requires TextPrefixesFit(fields, columns) && 0 <= k < |fields|
    requires forall i :: 0 <= i < k ==> FieldBlock(record, fields[i], columns).Complete?
    requires FieldBlock(record, fields[k], columns).Aborted?
    ensures RenderFields(record, fields, columns)
            == Aborted(Flatten(RowsOf(Blocks(record, fields, columns))[..k]) + FieldBlock(record, fields[k], columns).rows,
                       "", FieldBlock(record, fields[k], columns).fault)
  {
    RenderFieldsSequence(record, fields, columns);
    SequenceAbortAt(Blocks(record, fields, columns), k);
  }

  /** Two tables that differ only in `max_lines`. */
  predicate SameButMaxLines(a: seq<FieldSpec>, b: seq<FieldSpec>) {
    |a| == |b| && forall i :: 0 <= i < |a| ==> a[i].title == b[i].title && a[i].key == b[i].key
  }

  /** The detailed view never reads `max_lines`: changing it changes nothing. */
  lemma {:induction false} RenderFieldsIgnoreMaxLines(record: Dict, a: seq<FieldSpec>, b: seq<FieldSpec>, columns: int)
    requires TextPrefixesFit(a, columns) && SameButMaxLines(a, b)
    ensures TextPrefixesFit(b, columns)
    ensures RenderFields(record, a, columns) == RenderFields(record, b, columns)
  {
    if |a| > 0 {
      assert forall i :: 0 <= i < |a| - 1 ==> a[1..][i] == a[i + 1] && b[1..][i] == b[i + 1];
      RenderFieldsIgnoreMaxLines(record, a[1..], b[1..], columns);
      assert FieldBlock(record, a[0], columns) == FieldBlock(record, b[0], columns);
    }
  }

  /** Every field is present and holds trailer records exactly when it is the trailers field. */
  predicate DetailReadable(record: Dict, fields: seq<FieldSpec>) {
    forall i :: 0 <= i < |fields| ==>
      fields[i].key in record && (record[fields[i].key].VTrailers? <==> fields[i].key == "trailers")
  }

  /** On a readable record the text part fails only inside the word wrapper. */
  lemma {:induction false} RenderFieldsFaults(record: Dict, fields: seq<FieldSpec>, columns: int)
    requires TextPrefixesFit(fields, columns) && DetailReadable(record, fields)
    ensures RenderFields(record, fields, columns).Aborted? ==>
              RenderFields(record, fields, columns).fault in {NoSpace, NoProgress}
  {
    if |fields| > 0 {
      assert forall i :: 0 <= i < |fields| - 1 ==> fields[1..][i] == fields[i + 1];
      RenderFieldsFaults(record, fields[1..], columns);
      var f := fields[0];
      if f.key != "trailers" {
        assert ParseContent(record[f.key]).Ok?;
      }
    }
  }

  /**
   `int((columns / 2) - default_width / 2)`: the columns to the left of a
   centred image row. The quotients are exact halves and `int` truncates
   toward zero, so a terminal narrower than the image gets a negative
   offset, and `" " * offset` then prints nothing.
   */
  function BlankOffset(columns: int): (b: int)
    ensures columns >= DefaultWidth ==> b >= 0 && 2 * b + DefaultWidth <= columns <= 2 * b + DefaultWidth + 1
    ensures columns < DefaultWidth ==> b <= 0
  {
    var twice := columns - DefaultWidth;
    if twice >= 0 then twice / 2 else -((-twice) / 2)
  }

  /** A line of the image: the offset in spaces, the glyphs, the offset again. */
  function ImageRow(row: seq<Pixel>, columns: int): (s: string)
    ensures StartsWith(s, Repeat(' ', BlankOffset(columns)) + Glyphs(row))
    ensures |s| == |Glyphs(row)| + 2 * |Repeat(' ', BlankOffset(columns))|
    ensures s[|s| - |Repeat(' ', BlankOffset(columns))|..] == Repeat(' ', BlankOffset(columns))
  {
    var pad := Repeat(' ', BlankOffset(columns));
    assert (pad + Glyphs(row) + pad)[..|pad + Glyphs(row)|] == pad + Glyphs(row);
    assert (pad + Glyphs(row) + pad)[|pad + Glyphs(row)|..] == pad;
    pad + Glyphs(row) + pad
  }

  /**
   A full image row, counted in terminal cells (one per glyph), sits centred:
   the padding on the two sides plus the row fill the terminal to within one
   cell, and a narrow terminal gets no padding at all.
   */
  lemma ImageRowCentred(columns: int)
    ensures columns >= DefaultWidth ==>
              2 * |Repeat(' ', BlankOffset(columns))| + DefaultWidth <= columns
              <= 2 * |Repeat(' ', BlankOffset(columns))| + DefaultWidth + 1
    ensures columns < DefaultWidth ==> Repeat(' ', BlankOffset(columns)) == ""
  {
  }

  /** An `AnimeDetailedItemDisplayer`: the record, its image, the terminal width. */
  datatype DetailedItemDisplayer = DetailedItemDisplayer(animeInf: Dict, image: ImagePixels, columns: int)

  /**
   The text the displayer prints before the image: the combined table, each
   field wrapped at the full terminal width (there is no image beside it).
   */
  function DetailText(d: DetailedItemDisplayer): (r: Rendered)
    requires MinDetailColumns <= d.columns
    ensures TextPrefixesFit(AnimeDetailedFields, d.columns)
    ensures r == RenderFields(d.animeInf, AnimeDetailedFields, d.columns)
  {
    DetailedPrefixesFit(d.columns);
    RenderFields(d.animeInf, AnimeDetailedFields, d.columns)
  }

  /**
   `AnimeDetailedItemDisplayer.render_info`: the text, then one centred
   line per pixel row the image still has. The image is reached only when
   the text completes.
   */
  function RenderDetails(d: DetailedItemDisplayer): (r: Rendered)
    requires MinDetailColumns <= d.columns
    ensures r.Aborted? <==> DetailText(d).Aborted?
    ensures r.Aborted? ==> r == DetailText(d)
    ensures r.Complete? ==>
              && |r.rows| == |DetailText(d).rows| + Remaining(d.image)
              && r.rows[..|DetailText(d).rows|] == DetailText(d).rows
              && forall i :: 0 <= i < |Drain(d.image).0| ==>
                   r.rows[|DetailText(d).rows| + i] == ImageRow(Drain(d.image).0[i], d.columns)
  {
    var rows := Drain(d.image).0;
    match DetailText(d)
    case Complete(text) =>
      var image := seq(|rows|, i requires 0 <= i < |rows| => ImageRow(rows[i], d.columns));
      assert (text + image)[..|text|] == text;
      Complete(text + image)
    case aborted => aborted
  }

  /** The detailed text is the list fields' lines followed by the detail fields' lines. */
  lemma DetailTextSplits(d: DetailedItemDisplayer)
    requires MinDetailColumns <= d.columns
    ensures TextPrefixesFit(AnimeListItemFields, d.columns) && TextPrefixesFit(AnimeDetailsFields, d.columns)
    ensures DetailText(d)
            == Then(RenderFields(d.animeInf, AnimeListItemFields, d.columns),
                    RenderFields(d.animeInf, AnimeDetailsFields, d.columns))
  {
    DetailedPrefixesFit(d.columns);
    assert forall i :: 0 <= i < |AnimeListItemFields| ==> AnimeListItemFields[i] == AnimeDetailedFields[i];
    assert forall i :: 0 <= i < |AnimeDetailsFields| ==> AnimeDetailsFields[i] == AnimeDetailedFields[i + 5];
    RenderFieldsAppend(d.animeInf, AnimeListItemFields, AnimeDetailsFields, d.columns);
  }

  /** In a dictionary made by the detail `get_dict`, only "trailers" holds trailer records. */
  lemma DetailDictReadable(x: DetailDisplayInfo)
    ensures DetailReadable(GetDetailDict(x), AnimeDetailedFields)
  {
    TablesMatchDicts();
    var d := GetDetailDict(x);
    assert d["trailers"] == VTrailers(x.trailers);
    assert forall k :: k in ListKeys ==> !d[k].VTrailers?;
    assert !d["status"].VTrailers? && !d["episodes_count"].VTrailers?;
  }

  /**
   For a dictionary made by the detail `get_dict` no lookup, join or trailer
   iteration fails: a detailed render can stop only in the word wrapper.
   */
  lemma DetailFaults(x: DetailDisplayInfo, image: ImagePixels, columns: int)
    requires MinDetailColumns <= columns
    ensures RenderDetails(DetailedItemDisplayer(GetDetailDict(x), image, columns)).Aborted? ==>
              RenderDetails(DetailedItemDisplayer(GetDetailDict(x), image, columns)).fault in {NoSpace, NoProgress}
  {
    DetailedPrefixesFit(columns);
    DetailDictReadable(x);
    RenderFieldsFaults(GetDetailDict(x), AnimeDetailedFields, columns);
  }
}

=== FILE: errors.dfy ===
/**
 The ways the modelled Python code can end other than by returning: the
 exceptions it raises (or lets escape) and the one loop that never ends.
 */
module Errors {

  datatype Option<+T> = None | Some(value: T)

  /** One constructor per failure the rendering code can reach. */
  datatype Fault =
    /** IndexError: the backward scan for a space ran off the start of the line. */
    | NoSpace
    /** The wrap loop's cursor does not move: the loop never ends. */
    | NoProgress
    /** IndexError from any other list index. */
    | IndexError
    /** KeyError from a dictionary lookup. */
    | KeyError(key: string)
    /** TypeError: a join or an iteration over values of the wrong kind. */
    | TypeError

  /** A value or the fault that stopped its computation; usable with `:-`. */
  datatype Result<+T> = Ok(value: T) | Err(fault: Fault) {

    predicate IsFailure() {
      Err?
    }

    function PropagateFailure<U>(): Result<U>
      requires Err?
    {
      Err(fault)
    }

    function Extract(): T
      requires Ok?
    {
      value
    }
  }
}

=== FILE: fields.dfy ===
/**
 The field tables the two anime displayers print from
 (presentation/anime_info_displayers.py), the dictionary lookup they use and
 the shape of a render: the rows written, and how the render stopped.
 */
module Fields {
  import opened Errors
  import opened Products
  import opened TextWrap

  /** A `FormatedTitleMap`: the printed title, the dict key (`original_title`) and `max_lines`. */
  datatype FieldSpec = FieldSpec(title: string, key: string, maxLines: int)

  /** `AnimeListItemFields`, in print order. */
  const AnimeListItemFields: seq<FieldSpec> := [
    FieldSpec("ID", "api_id", 1),
    FieldSpec("Title", "title", 2),
    FieldSpec("Overview", "overview", 17),
    FieldSpec("Release Date", "release_date", 1),
    FieldSpec("Genres", "genres", 1)
  ]

  /** `AnimeDetailsFields`, in print order (the episode title keeps its spelling). */
  const AnimeDetailsFields: seq<FieldSpec> := [
    FieldSpec("Number of episdes", "episodes_count", 1),
    FieldSpec("Number of seasons", "seasons_count", 1),
    FieldSpec("Status", "status", 1),
    FieldSpec("Trailers", "trailers", 6)
  ]

  /** The fields the detailed displayer prints: the list fields, then the detail fields. */
  const AnimeDetailedFields: seq<FieldSpec> := AnimeListItemFields + AnimeDetailsFields

  /**
   The detailed displayer's table is the list table followed by the detail
   table, no key is named twice, and in the list table only the fourth field
   is the release date.
   */
  lemma TableLayout()
    ensures AnimeDetailedFields[..|AnimeListItemFields|] == AnimeListItemFields
    ensures AnimeDetailedFields[|AnimeListItemFields|..] == AnimeDetailsFields
    ensures forall i, j :: 0 <= i < j < |AnimeDetailedFields| ==> AnimeDetailedFields[i].key != AnimeDetailedFields[j].key
    ensures forall i :: 0 <= i < |AnimeListItemFields| ==> (AnimeListItemFields[i].key == "release_date" <==> i == 3)
  {
  }

  /** Every field's prefix `"{title}: "` fits in `padding` columns. */
  predicate PrefixesFit(fields: seq<FieldSpec>, padding: int) {
    forall i :: 0 <= i < |fields| ==> |Prefix(fields[i].title)| <= padding
  }

  /** The longest prefix in the list table is `"Release Date: "`, 14 characters. */
  lemma ListPrefixesFit(padding: int)
    ensures PrefixesFit(AnimeListItemFields, padding) <==> 14 <= padding
  {
    assert |Prefix(AnimeListItemFields[3].title)| == 14;
  }

  /** The longest prefix in the detailed table is `"Number of seasons: "`, 19 characters. */
  lemma DetailedPrefixesFit(padding: int)
    ensures PrefixesFit(AnimeDetailedFields, padding) <==> 19 <= padding
  {
    assert |Prefix(AnimeDetailedFields[6].title)| == 19;
  }

  /** Every key the tables name is a key of the dictionary of the matching record. */
  lemma TablesMatchDicts()
    ensures forall i :: 0 <= i < |AnimeListItemFields| ==> AnimeListItemFields[i].key in ListKeys
    ensures forall i :: 0 <= i < |AnimeDetailedFields| ==>
              AnimeDetailedFields[i].key in ListKeys + DetailOnlyKeys
    ensures forall i :: 0 <= i < |AnimeListItemFields| ==> 1 <= AnimeListItemFields[i].maxLines
  {
  }

  /** `anime_inf[key]`: the value, or KeyError. */
  function Lookup(record: Dict, key: string): (r: Result<Value>)
    ensures r.Ok? <==> key in record
    ensures r.Ok? ==> r.value == record[key]
    ensures r.Err? ==> r.fault == KeyError(key)
  {
    if key in record then Ok(record[key]) else Err(KeyError(key))
  }

  /**
   The terminal output of a `render_info` call, one string per printed line:
   either every row, or the rows completed before an exception escaped, the
   text already written on the unfinished row, and the exception.
   */
  datatype Rendered =
    | Complete(rows: seq<string>)
    | Aborted(rows: seq<string>, pending: string, fault: Fault)

  /** The rows printed before `r`'s: the same ending, with `rows` in front. */
  function Prepend(rows: seq<string>, r: Rendered): (s: Rendered)
    ensures s.Complete? == r.Complete? && s.rows == rows + r.rows
    ensures s.Aborted? ==> s.pending == r.pending && s.fault == r.fault
  {
    match r
    case Complete(more) => Complete(rows + more)
    case Aborted(more, pending, fault) => Aborted(rows + more, pending, fault)
  }
}

=== FILE: list_view.dfy ===
/**
 `AnimeListItemDisplayer` (presentation/anime_info_displayers.py): one row
 per image pixel row, the row's glyphs, a bar, and the next line of text
 from a producer that walks the field table, then a rule of dashes.

 The producer is a generator built afresh for every row
 (`next(self._text_producer())`), so only the instance's counters carry over
 from one row to the next; here they are the `Cursor`, passed along.
 */
module ListView {
  import opened Errors
  import opened Strings
  import opened Products
  import opened TextWrap
  import opened Pixels
  import opened Ansi
  import opened Fields

  /** `_dflt_img_char_p_line`: the columns the image and its bar take. */
  const ImageCharsPerLine: int := 31

  /** The narrowest terminal whose text column holds every list prefix (14 characters). */
  const MinListColumns: int := 45

  /** The field printed only once the image is two rows from its end. */
  const ReleaseDateKey: string := "release_date"

  /**
   `_add_elipsis`: when a field has more lines than `max_lines`, line
   number `max_lines` gets "..." appended. The index is written as a negative
   one (`max_lines - line_count - 1`), so with `max_lines` below 1 it runs off
   the front of the list. Both width branches append the same text, and no
   line is dropped.
   */
  function AddEllipsis(lines: seq<string>, maxLines: int, textSpace: int): (r: Result<seq<string>>)
    ensures |lines| <= maxLines ==> r == Ok(lines)
    ensures maxLines < |lines| && maxLines < 1 ==> r == Err(IndexError)
    ensures 1 <= maxLines < |lines| ==>
              && r.Ok? && |r.value| == |lines|
              && r.value[maxLines - 1] == lines[maxLines - 1] + "..."
              && forall i :: 0 <= i < |lines| && i != maxLines - 1 ==> r.value[i] == lines[i]
  {
    var lineCount := |lines|;
    if maxLines < lineCount then
      var lastVisible := maxLines - lineCount - 1;
      if lastVisible < -lineCount then Err(IndexError)
      else
        var k := lineCount + lastVisible;
        var lastLine := lines[k];
        var lenLine := |lastLine|;
        if lenLine + 3 < textSpace then Ok(lines[k := lastLine + "..."])
        else Ok(lines[k := lastLine[0..lenLine] + "..."])
    else Ok(lines)
  }

  /** The width test of `_add_elipsis` decides nothing: the result is the same at every width. */
  lemma EllipsisIgnoresWidth(lines: seq<string>, maxLines: int, w1: int, w2: int)
    ensures AddEllipsis(lines, maxLines, w1) == AddEllipsis(lines, maxLines, w2)
  {
    if 1 <= maxLines < |lines| {
      var last := lines[maxLines - 1];
      assert last[0..|last|] == last;
    }
  }

  /** The ellipsis is added even when it pushes the line past the text column. */
  lemma EllipsisCanOverflow()
    ensures AddEllipsis(["abcd ", "ef"], 1, 5) == Ok(["abcd ...", "ef"])
    ensures |"abcd ..."| > 5
  {
    var lines := ["abcd ", "ef"];
    assert lines[0][0..5] + "..." == "abcd ...";
    assert lines[0 := "abcd ..."] == ["abcd ...", "ef"];
  }

  /** The lines of one field in the list view: look it up, wrap it, mark the cut. */
  function FieldLines(record: Dict, f: FieldSpec, textSpace: int): (r: Result<seq<string>>)
    requires |Prefix(f.title)| <= textSpace
    ensures f.key !in record ==> r == Err(KeyError(f.key))
    ensures r.Ok? ==> f.key in record && ContentLines(f.title, record[f.key], textSpace).Ok?
    ensures r.Ok? ==> |r.value| == |ContentLines(f.title, record[f.key], textSpace).value|
    ensures r.Ok? ==> forall i :: 0 <= i < |r.value| ==> 0 < |r.value[i]| <= textSpace + 3
    ensures f.key in record && ContentLines(f.title, record[f.key], textSpace).Err? ==>
              r == Err(ContentLines(f.title, record[f.key], textSpace).fault)
    ensures f.key in record && ContentLines(f.title, record[f.key], textSpace).Ok?
            && |ContentLines(f.title, record[f.key], textSpace).value| <= f.maxLines
            ==> r == ContentLines(f.title, record[f.key], textSpace)
    ensures f.key in record && ContentLines(f.title, record[f.key], textSpace).Ok?
            && f.maxLines < |ContentLines(f.title, record[f.key], textSpace).value|
            ==> if f.maxLines < 1 then r == Err(IndexError)
                else
                  && r.Ok?
                  && r.value[f.maxLines - 1] == ContentLines(f.title, record[f.key], textSpace).value[f.maxLines - 1] + "..."
                  && forall i :: 0 <= i < |r.value| && i != f.maxLines - 1 ==>
                       r.value[i] == ContentLines(f.title, record[f.key], textSpace).value[i]
  {
    var v :- Lookup(record, f.key);
    var lines :- ContentLines(f.title, v, textSpace);
    AddEllipsis(lines, f.maxLines, textSpace)
  }

  /**
   A field's lines are read back only for an empty text (no lines at all)
   or for a `max_lines` below 1 (the ellipsis index runs off).
   */
  lemma FieldLinesEmpty(record: Dict, f: FieldSpec, textSpace: int)
    requires |Prefix(f.title)| <= textSpace
    ensures FieldLines(record, f, textSpace) == Ok([]) ==>
              f.key in record && ParseContent(record[f.key]) == Ok("")
    ensures FieldLines(record, f, textSpace) == Err(IndexError) ==> f.maxLines < 1
  {
  }

  /** The lines of every field of a table, each computed as the list view computes it. */
  function FieldTable(record: Dict, fields: seq<FieldSpec>, textSpace: int): (r: seq<Result<seq<string>>>)
    requires PrefixesFit(fields, textSpace)
    ensures |r| == |fields|
    ensures forall i :: 0 <= i < |r| && r[i].Ok? ==> forall j :: 0 <= j < |r[i].value| ==> r[i].value[j] != ""
  {
    seq(|fields|, i requires 0 <= i < |fields| && |Prefix(fields[i].title)| <= textSpace =>
                    FieldLines(record, fields[i], textSpace))
  }

  /** Entry i of the table is field i's own lines at the table's width, in table order. */
  lemma FieldTableEntries(record: Dict, fields: seq<FieldSpec>, textSpace: int, i: int)
    requires PrefixesFit(fields, textSpace) && 0 <= i < |fields|
    ensures FieldTable(record, fields, textSpace)[i] == FieldLines(record, fields[i], textSpace)
  {
  }

  /**
   What the producer reads, one entry per field of the table: whether the
   field is the release date (which waits for the image's last rows), the
   lines the field gives (or the exception computing them raises), and the
   image height. The source recomputes a field's lines on every call, from
   the same record and the same width, so they are the same value each
   time it asks.
   */
  datatype View = View(waits: seq<bool>, fieldLines: seq<Result<seq<string>>>, imageHeight: int)

  /** One entry per field, and no field line is blank. */
  predicate Valid(v: View) {
    && |v.fieldLines| == |v.waits|
    && forall i :: 0 <= i < |v.fieldLines| && v.fieldLines[i].Ok? ==>
         forall j :: 0 <= j < |v.fieldLines[i].value| ==> v.fieldLines[i].value[j] != ""
  }

  /**
   The instance counters the producer reads and writes: the number of fields
   done (`len(_printed_anime_inf)`), the next line of the current field
   (`_curr_contet_printed_lines`) and the rows written (`_lines_printed`).
   */
  datatype Cursor = Cursor(printedFields: nat, fieldLine: nat, linesPrinted: int)

  const Start: Cursor := Cursor(0, 0, 0)

  /** One printed line moves to the next line of the field or, after its last, to the next field. */
  predicate Advances(c: Cursor, d: Cursor) {
    && d.linesPrinted == c.linesPrinted
    && ((d.printedFields == c.printedFields && d.fieldLine == c.fieldLine + 1)
        || (d.printedFields == c.printedFields + 1 && d.fieldLine == 0))
  }

  /**
   The first value of a fresh `_text_producer()`: a blank once every field
   is printed, a blank while the release date waits for the image's last two
   rows, otherwise the current line of the current field.
   */
  function TextProducer(v: View, c: Cursor): (r: Result<(string, Cursor)>)
    requires Valid(v)
    ensures c.printedFields == |v.waits| ==> r == Ok(("", c))
    ensures c.printedFields > |v.waits| ==> r == Err(IndexError)
    ensures (c.printedFields < |v.waits| && v.waits[c.printedFields]
             && c.linesPrinted < v.imageHeight - 2) ==> r == Ok(("", c))
    ensures r.Ok? && r.value.0 == "" ==> r.value.1 == c
    ensures r.Ok? && r.value.0 != "" ==> Advances(c, r.value.1)
    ensures r.Ok? && r.value.0 == "" ==>
              c.printedFields >= |v.waits| || (v.waits[c.printedFields] && c.linesPrinted < v.imageHeight - 2)
    ensures c.printedFields < |v.waits| && !(v.waits[c.printedFields] && c.linesPrinted < v.imageHeight - 2) ==>
              && (v.fieldLines[c.printedFields].Err? ==> r == Err(v.fieldLines[c.printedFields].fault))
              && (v.fieldLines[c.printedFields].Ok? && c.fieldLine < |v.fieldLines[c.printedFields].value| ==>
                    r.Ok? && r.value.0 == v.fieldLines[c.printedFields].value[c.fieldLine])
              && (v.fieldLines[c.printedFields].Ok? && c.fieldLine >= |v.fieldLines[c.printedFields].value| ==>
                    r == Err(IndexError))
  {
    if c.printedFields == |v.waits| then Ok(("", c))
    else if c.printedFields > |v.waits| then Err(IndexError)
    else
      if v.waits[c.printedFields] && c.linesPrinted < v.imageHeight - 2 then Ok(("", c))
      else
        var lines :- v.fieldLines[c.printedFields];
        if c.fieldLine >= |lines| then Err(IndexError)
        else
          var next :=
            if c.fieldLine + 1 == |lines| then Cursor(c.printedFields + 1, 0, c.linesPrinted)
            else c.(fieldLine := c.fieldLine + 1);
          Ok((lines[c.fieldLine], next))
  }

  /**
   `k` passes of `render_info`'s loop, text column only: the producer's
   value for each row that completed, the counters after them, and the
   exception that stopped the loop, if one did.
   */
  datatype Run = Run(out: seq<string>, cursor: Cursor, fault: Option<Fault>)

  /** `self._lines_printed += 1`, after each row. */
  function Tick(c: Cursor): (d: Cursor)
    ensures d.printedFields == c.printedFields && d.fieldLine == c.fieldLine
    ensures d.linesPrinted == c.linesPrinted + 1
  {
    c.(linesPrinted := c.linesPrinted + 1)
  }

  /** The text of `k` rows: one producer value per row, `_lines_printed` counted after each. */
  function Produce(v: View, c: Cursor, k: nat): (r: Run)
    requires Valid(v)
    ensures r.fault.None? ==> |r.out| == k && r.cursor.linesPrinted == c.linesPrinted + k
    ensures r.fault.Some? ==> |r.out| < k && TextProducer(v, r.cursor) == Err(r.fault.value)
    decreases k
  {
    if k == 0 then Run([], c, None)
    else
      match TextProducer(v, c)
      case Err(f) => Run([], c, Some(f))
      case Ok(step) =>
        var rest := Produce(v, Tick(step.1), k - 1);
        Run([step.0] + rest.out, rest.cursor, rest.fault)
  }

  /** The lines of the first `n` fields, one after another. */
  function LinesBefore(v: View, n: nat): Result<seq<string>>
    requires n <= |v.fieldLines|
  {
    if n == 0 then Ok([])
    else
      var prev :- LinesBefore(v, n - 1);
      var cur :- v.fieldLines[n - 1];
      Ok(prev + cur)
  }

  /** The counters describe a position inside the field lines. */
  predicate Inv(v: View, c: Cursor)
    requires Valid(v)
  {
    && c.printedFields <= |v.waits|
    && LinesBefore(v, c.printedFields).Ok?
    && (c.fieldLine > 0 ==>
          && c.printedFields < |v.waits|
          && v.fieldLines[c.printedFields].Ok?
          && c.fieldLine < |v.fieldLines[c.printedFields].value|)
  }

  /** The field lines before the cursor's position. */
  function Consumed(v: View, c: Cursor): seq<string>
    requires Valid(v) && Inv(v, c)
  {
    LinesBefore(v, c.printedFields).value
    + (if c.fieldLine == 0 then [] else v.fieldLines[c.printedFields].value[..c.fieldLine])
  }

  /** The non-blank entries of `out`, in order. */
  function NonBlank(out: seq<string>): (r: seq<string>)
    ensures |r| <= |out|
    ensures forall s :: s in r ==> s in out && s != ""
  {
    if |out| == 0 then [] else (if out[0] == "" then [] else [out[0]]) + NonBlank(out[1..])
  }

  /** One producer value: a blank leaves the position alone, a line is the next field line. */
  lemma ProducerStep(v: View, c: Cursor)
    requires Valid(v) && Inv(v, c) && TextProducer(v, c).Ok?
    ensures Inv(v, Tick(TextProducer(v, c).value.1))
    ensures Consumed(v, Tick(TextProducer(v, c).value.1)) == Consumed(v, c) + NonBlank([TextProducer(v, c).value.0])
  {
    var (line, d) := TextProducer(v, c).value;
    if line == "" {
      assert NonBlank([line]) == [];
    } else {
      assert NonBlank([line]) == [line] by {
        assert [line][1..] == [];
      }
      var lines := v.fieldLines[c.printedFields].value;
      assert c.fieldLine < |lines| && line == lines[c.fieldLine];
      if c.fieldLine + 1 == |lines| {
        assert LinesBefore(v, c.printedFields + 1).value == LinesBefore(v, c.printedFields).value + lines;
        assert lines == lines[..c.fieldLine] + [line];
      } else {
        assert lines[..c.fieldLine + 1] == lines[..c.fieldLine] + [line];
      }
    }
  }

  /** Over any number of rows, completed or cut short by an exception, the counters stay inside the field lines. */
  lemma {:induction false} ProduceKeepsInv(v: View, c: Cursor, k: nat)
    requires Valid(v) && Inv(v, c)
    ensures Inv(v, Produce(v, c, k).cursor)
    decreases k
  {
    if k == 0 || TextProducer(v, c).Err? {
      ProduceStops(v, c, k);
    } else {
      ProducerStep(v, c);
      ProduceKeepsInv(v, Tick(TextProducer(v, c).value.1), k - 1);
      ProduceUnfolds(v, c, k);
    }
  }

  /**
   Over any number of rows, completed or cut short by an exception, the
   non-blank text is the field lines, in order, none skipped.
   */
  lemma {:induction false} ProduceKeepsOrder(v: View, c: Cursor, k: nat)
    requires Valid(v) && Inv(v, c)
    ensures Inv(v, Produce(v, c, k).cursor)
    ensures Consumed(v, Produce(v, c, k).cursor) == Consumed(v, c) + NonBlank(Produce(v, c, k).out)
    decreases k, 1
  {
    ProduceKeepsInv(v, c, k);
    if k == 0 || TextProducer(v, c).Err? {
      ProduceStops(v, c, k);
      assert NonBlank([]) == [];
    } else {
      StepKeepsOrder(v, c, k);
    }
  }

  /** The inductive step: one producer value, then the remaining rows. */
  lemma {:induction false} StepKeepsOrder(v: View, c: Cursor, k: nat)
    requires Valid(v) && Inv(v, c) && k > 0 && TextProducer(v, c).Ok?
    requires Inv(v, Produce(v, c, k).cursor)
    ensures Consumed(v, Produce(v, c, k).cursor) == Consumed(v, c) + NonBlank(Produce(v, c, k).out)
    decreases k, 0
  {
    var step := TextProducer(v, c).value;
    var d := Tick(step.1);
    var rest := Produce(v, d, k - 1);
    ProducerStep(v, c);
    ProduceKeepsOrder(v, d, k - 1);
    ProduceUnfolds(v, c, k);
    ConsumedChain(Consumed(v, c), Consumed(v, d), Consumed(v, rest.cursor), step.0, rest.out);
  }

  /** Text consumed in two stretches is consumed in one. */
  lemma ConsumedChain(before: seq<string>, mid: seq<string>, after: seq<string>, s: string, rest: seq<string>)
    requires mid == before + NonBlank([s]) && after == mid + NonBlank(rest)
    ensures after == before + NonBlank([s] + rest)
  {
    NonBlankCons(s, rest);
  }

  /** A pass with no rows, or one whose first producer call raises, writes no text and keeps the counters. */
  lemma ProduceStops(v: View, c: Cursor, k: nat)
    requires Valid(v) && (k == 0 || TextProducer(v, c).Err?)
    ensures Produce(v, c, k).out == [] && Produce(v, c, k).cursor == c
  {
  }

  /** Otherwise the first value is followed by the remaining rows from the advanced counters. */
  lemma ProduceUnfolds(v: View, c: Cursor, k: nat)
    requires Valid(v) && k > 0 && TextProducer(v, c).Ok?
    ensures Produce(v, c, k).out
            == [TextProducer(v, c).value.0]
               + Produce(v, Tick(TextProducer(v, c).value.1), k - 1).out
    ensures Produce(v, c, k).cursor
            == Produce(v, Tick(TextProducer(v, c).value.1), k - 1).cursor
  {
  }

  lemma NonBlankCons(s: string, rest: seq<string>)
    ensures NonBlank([s] + rest) == NonBlank([s]) + NonBlank(rest)
  {
    assert ([s] + rest)[1..] == rest;
    assert [s][1..] == [];
  }

  /** The first `n` fields' lines are a prefix of the lines of the first `m`. */
  lemma {:induction false} LinesBeforePrefix(v: View, n: nat, m: nat)
    requires n <= m <= |v.fieldLines| && LinesBefore(v, m).Ok?
    ensures LinesBefore(v, n).Ok? && LinesBefore(v, n).value <= LinesBefore(v, m).value
    decreases m - n
  {
    if n < m {
      LinesBeforePrefix(v, n, m - 1);
    }
  }

  /**
   From fresh counters, the non-blank text of the rows is exactly the field
   lines in table order up to the cursor, and so a prefix of all of them.
   */
  lemma ProducedTextInOrder(v: View, k: nat)
    requires Valid(v)
    ensures Inv(v, Produce(v, Start, k).cursor)
    ensures NonBlank(Produce(v, Start, k).out) == Consumed(v, Produce(v, Start, k).cursor)
    ensures LinesBefore(v, |v.waits|).Ok? ==> NonBlank(Produce(v, Start, k).out) <= LinesBefore(v, |v.waits|).value
  {
    assert Inv(v, Start) && Consumed(v, Start) == [];
    ProduceKeepsOrder(v, Start, k);
    var d := Produce(v, Start, k).cursor;
    if LinesBefore(v, |v.waits|).Ok? {
      LinesBeforePrefix(v, d.printedFields, |v.waits|);
      if d.fieldLine > 0 {
        LinesBeforePrefix(v, d.printedFields + 1, |v.waits|);
        assert LinesBefore(v, d.printedFields + 1).value
               == LinesBefore(v, d.printedFields).value + v.fieldLines[d.printedFields].value;
      }
    }
  }

  /**
   The producer's IndexError at a reachable position: the current field's
   lines are empty, or computing them was itself an IndexError.
   */
  lemma ProducerIndexError(v: View, c: Cursor)
    requires Valid(v) && Inv(v, c) && TextProducer(v, c) == Err(IndexError)
    ensures c.printedFields < |v.waits| && c.fieldLine == 0
    ensures v.fieldLines[c.printedFields] == Ok([]) || v.fieldLines[c.printedFields] == Err(IndexError)
  {
  }

  /** No field's lines failed but in the wrapper. */
  predicate WrapFaultsOnly(v: View) {
    forall i :: 0 <= i < |v.fieldLines| && v.fieldLines[i].Err? ==> v.fieldLines[i].fault in {NoSpace, NoProgress}
  }

  /** When no field's lines fail but by wrapping, the producer fails only so or at an empty field. */
  lemma {:induction false} ProduceFaults(v: View, c: Cursor, k: nat)
    requires Valid(v) && WrapFaultsOnly(v)
    ensures Produce(v, c, k).fault.Some? ==> Produce(v, c, k).fault.value in {NoSpace, NoProgress, IndexError}
    decreases k
  {
    if k > 0 {
      match TextProducer(v, c)
      case Err(f) =>
      case Ok(step) =>
        ProduceFaults(v, Tick(step.1), k - 1);
    }
  }

  /**
   The rows of `render_info`'s loop, given each row's glyphs: the glyphs, a
   bar and the producer's text; an exception leaves its row at the bar.
   */
  function RenderRows(v: View, heads: seq<string>): (r: Rendered)
    requires Valid(v)
    ensures r.Complete? ==> |r.rows| == |heads|
    ensures r.Aborted? ==> |r.rows| < |heads| && r.pending == heads[|r.rows|] + "|"
    ensures forall i :: 0 <= i < |r.rows| ==> StartsWith(r.rows[i], heads[i] + "|")
    ensures r.Aborted? ==> Produce(v, Start, |heads|).fault == Some(r.fault)
  {
    var run := Produce(v, Start, |heads|);
    var rows := seq(|run.out|, i requires 0 <= i < |run.out| <= |heads| => heads[i] + "|" + run.out[i]);
    assert forall i :: 0 <= i < |rows| ==> rows[i][..|heads[i] + "|"|] == heads[i] + "|";
    match run.fault
    case None => Complete(rows)
    case Some(f) => Aborted(rows, heads[|rows|] + "|", f)
  }

  /**
   A list-item displayer: the record, its image, the terminal width, and the
   field table it prints (`_anime_info_to_print`, which
   `AnimeListItemDisplayer` sets to `AnimeListItemFields`).
   */
  datatype ListItemDisplayer = ListItemDisplayer(animeInf: Dict, image: ImagePixels, columns: int, fields: seq<FieldSpec>)

  /** Every field's prefix fits in the text column beside the image. */
  predicate Fits(d: ListItemDisplayer) {
    PrefixesFit(d.fields, d.columns - ImageCharsPerLine)
  }

  /** With the list table, the text column holds every prefix exactly from 45 columns on. */
  lemma ListTableFits(d: ListItemDisplayer)
    requires d.fields == AnimeListItemFields
    ensures Fits(d) <==> MinListColumns <= d.columns
  {
    ListPrefixesFit(d.columns - ImageCharsPerLine);
  }

  /** What the displayer's producer reads: its table at the text width beside the image. */
  function ViewOf(d: ListItemDisplayer): (v: View)
    requires Fits(d)
    ensures Valid(v) && |v.waits| == |d.fields| && v.imageHeight == d.image.defaultHeight
  {
    View(seq(|d.fields|, i requires 0 <= i < |d.fields| => d.fields[i].key == ReleaseDateKey),
         FieldTable(d.animeInf, d.fields, d.columns - ImageCharsPerLine),
         d.image.defaultHeight)
  }

  /** In the displayer's view a field waits for the image exactly when it is the release date. */
  lemma ViewOfWaits(d: ListItemDisplayer, i: int)
    requires Fits(d) && 0 <= i < |d.fields|
    ensures ViewOf(d).waits[i] <==> d.fields[i].key == ReleaseDateKey
  {
  }

  /** The view's entry i is field i's lines wrapped at `columns - 31`, the width beside the image. */
  lemma ViewOfLines(d: ListItemDisplayer, i: int)
    requires Fits(d) && 0 <= i < |d.fields|
    ensures ViewOf(d).fieldLines[i] == FieldLines(d.animeInf, d.fields[i], d.columns - ImageCharsPerLine)
  {
    var width := d.columns - ImageCharsPerLine;
    assert ViewOf(d).fieldLines == FieldTable(d.animeInf, d.fields, width);
    FieldTableEntries(d.animeInf, d.fields, width, i);
  }

  /**
   `AnimeListItemDisplayer.render_info` on a fresh displayer: a row per
   pixel row the image still has, then `'-' * columns`.
   */
  function RenderListItem(d: ListItemDisplayer): (r: Rendered)
    requires Fits(d)
    ensures r.Complete? ==> |r.rows| == Remaining(d.image) + 1 && r.rows[|r.rows| - 1] == Repeat('-', d.columns)
    ensures forall i :: 0 <= i < |r.rows| && i < Remaining(d.image) ==>
              (d.image.pixelCount + i) * DefaultWidth < |d.image.samples|
              && StartsWith(r.rows[i], Glyphs(RowAt(d.image.samples, d.image.pixelCount + i)) + "|")
    ensures r.Aborted? ==> |r.rows| < Remaining(d.image)
    ensures r.Aborted? ==>
              && r.pending == Glyphs(Drain(d.image).0[|r.rows|]) + "|"
              && Produce(ViewOf(d), Start, Remaining(d.image)).fault == Some(r.fault)
  {
    match RenderRows(ViewOf(d), GlyphRows(Drain(d.image).0))
    case Complete(out) => Complete(out + [Repeat('-', d.columns)])
    case Aborted(out, pending, fault) => Aborted(out, pending, fault)
  }

  /**
   Each row a list render writes is the glyphs of its pixel row, a bar and
   the producer's value, and the render completes exactly when the producer
   never raises.
   */
  lemma ListItemRows(d: ListItemDisplayer)
    requires Fits(d)
    ensures |RenderListItem(d).rows| >= |Produce(ViewOf(d), Start, Remaining(d.image)).out|
    ensures forall i :: 0 <= i < |Produce(ViewOf(d), Start, Remaining(d.image)).out| ==>
              RenderListItem(d).rows[i]
              == Glyphs(Drain(d.image).0[i]) + "|" + Produce(ViewOf(d), Start, Remaining(d.image)).out[i]
    ensures RenderListItem(d).Complete? <==> Produce(ViewOf(d), Start, Remaining(d.image)).fault.None?
  {
  }

  /**
   The non-blank text of a list render, complete or cut short, is the field
   lines in table order, none skipped or repeated.
   */
  lemma ListItemTextInOrder(d: ListItemDisplayer)
    requires Fits(d)
    ensures LinesBefore(ViewOf(d), |d.fields|).Ok? ==>
              NonBlank(Produce(ViewOf(d), Start, Remaining(d.image)).out)
              <= LinesBefore(ViewOf(d), |d.fields|).value
  {
    ProducedTextInOrder(ViewOf(d), Remaining(d.image));
  }

  /** Every field is present, is not a list of trailer records, and has `max_lines` of at least 1. */
  predicate Readable(record: Dict, fields: seq<FieldSpec>) {
    forall i :: 0 <= i < |fields| ==>
      fields[i].key in record && !record[fields[i].key].VTrailers? && 1 <= fields[i].maxLines
  }

  /** On a readable record, a field's lines fail, if at all, only in the wrapper. */
  lemma ViewFaults(d: ListItemDisplayer)
    requires Fits(d) && Readable(d.animeInf, d.fields)
    ensures WrapFaultsOnly(ViewOf(d))
  {
    var t := ViewOf(d).fieldLines;
    forall i | 0 <= i < |t| && t[i].Err?
      ensures t[i].fault in {NoSpace, NoProgress}
    {
      assert ParseContent(d.animeInf[d.fields[i].key]).Ok?;
    }
  }

  /** A `get_dict` dictionary holds every list field, none of them trailer records. */
  lemma ListDictReadable(x: DisplayInfo)
    ensures Readable(GetDict(x), AnimeListItemFields)
  {
    TablesMatchDicts();
    assert forall k :: k in ListKeys ==> !GetDict(x)[k].VTrailers?;
  }

  /** On a readable record a list render stops only in the wrapper or at a field whose text is empty. */
  lemma ReadableFaults(d: ListItemDisplayer)
    requires Fits(d) && Readable(d.animeInf, d.fields)
    ensures RenderListItem(d).Aborted? ==> RenderListItem(d).fault in {NoSpace, NoProgress, IndexError}
  {
    ViewFaults(d);
    ProduceFaults(ViewOf(d), Start, Remaining(d.image));
  }

  /**
   For a dictionary made by `get_dict` no lookup or join fails: a list render
   of the list table can stop only in the wrapper or at a field whose text
   is empty.
   */
  lemma ListItemFaults(x: DisplayInfo, image: ImagePixels, columns: int)
    requires MinListColumns <= columns
    ensures Fits(ListItemDisplayer(GetDict(x), image, columns, AnimeListItemFields))
    ensures RenderListItem(ListItemDisplayer(GetDict(x), image, columns, AnimeListItemFields)).Aborted? ==>
              RenderListItem(ListItemDisplayer(GetDict(x), image, columns, AnimeListItemFields)).fault
              in {NoSpace, NoProgress, IndexError}
  {
    ListPrefixesFit(columns - ImageCharsPerLine);
    ListDictReadable(x);
    ReadableFaults(ListItemDisplayer(GetDict(x), image, columns, AnimeListItemFields));
  }
}

=== FILE: name_list.dfy ===
/**
 `ListDisplayer` (presentation/anime_info_displayers.py): a fixed heading
 and one `- item` line per item. The heading is the literal "Genres:",
 whatever name the displayer was built with.
 */
module NameList {
  import opened Strings

  datatype ListDisplayer = ListDisplayer(name: string, listToDisplay: seq<string>)

  const Heading: string := "Genres:"

  const Bullet: string := "- "

  /** `ListDisplayer.render_info`, one string per printed line. */
  function RenderNames(d: ListDisplayer): (rows: seq<string>)
    ensures |rows| == |d.listToDisplay| + 1 && rows[0] == Heading
    ensures forall i :: 1 <= i < |rows| ==> StartsWith(rows[i], Bullet)
  {
    var items := d.listToDisplay;
    var bulleted := seq(|items|, i requires 0 <= i < |items| => Bullet + items[i]);
    assert forall i :: 0 <= i < |items| ==> (Bullet + items[i])[..|Bullet|] == Bullet;
    [Heading] + bulleted
  }

  /** Reads the items back from printed lines: each line after the heading, bullet removed. */
  function ItemsOf(rows: seq<string>): seq<string>
    requires |rows| >= 1 && forall i :: 1 <= i < |rows| ==> StartsWith(rows[i], Bullet)
  {
    seq(|rows| - 1, i requires 0 <= i < |rows| - 1 && StartsWith(rows[i + 1], Bullet) => rows[i + 1][|Bullet|..])
  }

  /** Every item is printed, in order, exactly as given: the lines give the list back. */
  lemma NamesRoundTrip(d: ListDisplayer)
    ensures ItemsOf(RenderNames(d)) == d.listToDisplay
  {
    var rows := RenderNames(d);
    forall i | 0 <= i < |d.listToDisplay|
      ensures ItemsOf(rows)[i] == d.listToDisplay[i]
    {
      assert rows[i + 1] == Bullet + d.listToDisplay[i];
    }
  }

  /** The `name` attribute is never printed: displayers that differ only in it print the same lines. */
  lemma NameIgnored(d: ListDisplayer, name: string)
    ensures RenderNames(d.(name := name)) == RenderNames(d)
  {
  }
}

=== FILE: pixels.dfy ===
/**
 The pixel grid of a cover image (`ImagePixels` in image_builder.py): a flat,
 row-major list of RGB samples cut into rows of a fixed width by a one-shot
 iterator, and the integer height `_build_image` stores beside it.
 */
module Pixels {
  import opened Strings

  type Channel = c: int | 0 <= c < 256

  datatype Pixel = Pixel(r: Channel, g: Channel, b: Channel)

  /** `ImagePixels.default_width`: a class constant, the same for every image. */
  const DefaultWidth: nat := 30

  /**
   An `ImagePixels` instance: its samples, the per-instance `default_height`
   and the row cursor `_pixel_count` that `__next__` advances. There is no
   width field: the width is the class constant above.
   */
  datatype ImagePixels = ImagePixels(samples: seq<Pixel>, defaultHeight: int, pixelCount: nat)

  /** The constructor: a fresh instance has every row still to give. */
  function Create(samples: seq<Pixel>, defaultHeight: int): (g: ImagePixels)
    ensures g.samples == samples && g.defaultHeight == defaultHeight
    ensures Remaining(g) == RowCount(|samples|)
  {
    ImagePixels(samples, defaultHeight, 0)
  }

  /** `__len__`: the number of samples, never fewer than the rows left. */
  function Len(g: ImagePixels): (n: nat)
    ensures n == |g.samples|
    ensures Remaining(g) <= n
  {
    |g.samples|
  }

  /**
   `__iter__` returns the instance itself, cursor included: a loop over it
   continues where earlier `__next__` calls left off.
   */
  function Iter(g: ImagePixels): (r: ImagePixels)
    ensures Next(r) == Next(g) && Drain(r) == Drain(g)
  {
    g
  }

  /** ceil(n / DefaultWidth): the number of rows n samples fill. */
  function RowCount(n: nat): nat {
    (n + DefaultWidth - 1) / DefaultWidth
  }

  lemma RowCountBound(n: nat, k: nat)
    ensures k < RowCount(n) <==> k * DefaultWidth < n
  {
  }

  /** Row `k` of the samples: `samples[k*30 : (k+1)*30]`, clipped at the end as Python slices are. */
  function RowAt(samples: seq<Pixel>, k: nat): seq<Pixel>
    requires k * DefaultWidth < |samples|
  {
    samples[k * DefaultWidth .. Min((k + 1) * DefaultWidth, |samples|)]
  }

  /** What one call of `__next__` does: a row and the advanced instance, or StopIteration. */
  datatype Advance = Stop | Row(row: seq<Pixel>, rest: ImagePixels)

  function Next(g: ImagePixels): (a: Advance)
    ensures a.Stop? <==> g.pixelCount >= RowCount(|g.samples|)
    ensures a.Row? ==> a.rest == g.(pixelCount := g.pixelCount + 1)
    ensures a.Row? ==> 0 < |a.row| <= DefaultWidth
    ensures a.Row? ==> a.row == RowAt(g.samples, g.pixelCount)
  {
    RowCountBound(|g.samples|, g.pixelCount);
    // `_pixel_count >= len(image_pixels) / default_width` is a comparison
    // with a true quotient; multiplied out it compares cursor * width with len.
    if g.pixelCount * DefaultWidth >= |g.samples| then Stop
    else
      var start := g.pixelCount * DefaultWidth;
      var end := (g.pixelCount + 1) * DefaultWidth;
      Row(g.samples[start .. Min(end, |g.samples|)], g.(pixelCount := g.pixelCount + 1))
  }

  /** The number of rows an instance still has to give. */
  function Remaining(g: ImagePixels): nat {
    if g.pixelCount < RowCount(|g.samples|) then RowCount(|g.samples|) - g.pixelCount else 0
  }

  /**
   A `for` loop over the instance: every row `__next__` gives until it stops,
   and the instance as the loop leaves it.
   */
  function Drain(g: ImagePixels): (r: (seq<seq<Pixel>>, ImagePixels))
    ensures |r.0| == Remaining(g)
    ensures forall i :: 0 <= i < |r.0| ==>
              (g.pixelCount + i) * DefaultWidth < |g.samples| && r.0[i] == RowAt(g.samples, g.pixelCount + i)
    ensures r.1.samples == g.samples && r.1.defaultHeight == g.defaultHeight
    ensures Next(r.1).Stop?
    decreases |g.samples| - g.pixelCount * DefaultWidth
  {
    match Next(g)
    case Stop => ([], g)
    case Row(row, rest) =>
      var tail := Drain(rest);
      ([row] + tail.0, tail.1)
  }

  /** The rows a first traversal of a freshly built instance yields. */
  function Rows(samples: seq<Pixel>): seq<seq<Pixel>> {
    Drain(Create(samples, 0)).0
  }

  /**
   A traversal of a fresh instance yields ceil(len/30) rows; row i is the
   slice `[i*30 : (i+1)*30]`; all rows but the last are full; the rows
   put back together are the samples.
   */
  lemma RowsCoverSamples(samples: seq<Pixel>, defaultHeight: int)
    ensures Drain(Create(samples, defaultHeight)).0 == Rows(samples)
    ensures |Rows(samples)| == RowCount(|samples|)
    ensures forall i :: 0 <= i < |Rows(samples)| ==>
              i * DefaultWidth < |samples| && Rows(samples)[i] == RowAt(samples, i)
    ensures forall i :: 0 <= i < |Rows(samples)| - 1 ==> |Rows(samples)[i]| == DefaultWidth
    ensures Flatten(Rows(samples)) == samples
  {
    DrainIgnoresHeight(Create(samples, defaultHeight), Create(samples, 0));
    DrainFlattens(Create(samples, 0));
    var rows := Rows(samples);
    forall i | 0 <= i < |rows| - 1
      ensures |rows[i]| == DefaultWidth
    {
      RowCountBound(|samples|, i + 1);
    }
  }

  lemma {:induction false} DrainIgnoresHeight(g: ImagePixels, h: ImagePixels)
    requires g.samples == h.samples && g.pixelCount == h.pixelCount
    ensures Drain(g).0 == Drain(h).0
    decreases |g.samples| - g.pixelCount * DefaultWidth
  {
    match Next(g)
    case Stop =>
    case Row(_, rest) =>
      DrainIgnoresHeight(rest, Next(h).rest);
  }

  /** The rows still to come, put together, are the samples from the cursor's row on. */
  lemma {:induction false} DrainFlattens(g: ImagePixels)
    ensures Flatten(Drain(g).0) == g.samples[Min(g.pixelCount * DefaultWidth, |g.samples|)..]
    decreases |g.samples| - g.pixelCount * DefaultWidth
  {
    match Next(g)
    case Stop =>
    case Row(row, rest) =>
      DrainFlattens(rest);
      var tail := Drain(rest).0;
      assert Drain(g).0 == [row] + tail;
      assert Flatten(Drain(g).0) == row + Flatten(tail);
      var start := g.pixelCount * DefaultWidth;
      var mid := Min((g.pixelCount + 1) * DefaultWidth, |g.samples|);
      SuffixSplits(g.samples, start, mid);
  }

  /** A suffix is the stretch up to a later point followed by the suffix from there. */
  lemma SuffixSplits<T>(s: seq<T>, a: int, b: int)
    requires 0 <= a <= b <= |s|
    ensures s[a..] == s[a..b] + s[b..]
  {
  }

  /**
   The iterator is one-shot: once a loop has run it dry, `__iter__` hands back
   the same exhausted instance, every further `__next__` stops again and a
   second loop yields no rows.
   */
  lemma OneShot(g: ImagePixels)
    ensures Next(Drain(g).1) == Stop
    ensures Drain(Iter(Drain(g).1)) == ([], Drain(g).1)
  {
  }

  /** `__len__` counts samples, not rows: with two or more samples it exceeds the row count. */
  lemma LenCountsSamples(samples: seq<Pixel>, defaultHeight: int)
    ensures Len(Create(samples, defaultHeight)) == |Flatten(Rows(samples))|
    ensures |samples| >= 2 ==> Len(Create(samples, defaultHeight)) > |Drain(Create(samples, defaultHeight)).0|
  {
    RowsCoverSamples(samples, defaultHeight);
  }

  /**
   The tail of `_build_image` once the image is decoded and resized: the
   samples and `int(len(samples) / default_width)` as the stored height.
   */
  function BuildImage(samples: seq<Pixel>): (g: ImagePixels)
    ensures g.samples == samples && g.pixelCount == 0
    ensures 0 <= g.defaultHeight && g.defaultHeight * DefaultWidth <= |samples| < (g.defaultHeight + 1) * DefaultWidth
  {
    Create(samples, |samples| / DefaultWidth)
  }

  /** The stored height equals the number of rows iterated exactly when the samples fill whole rows. */
  lemma HeightMatchesRows(samples: seq<Pixel>)
    ensures BuildImage(samples).defaultHeight == |Drain(BuildImage(samples)).0|
            <==> |samples| % DefaultWidth == 0
    ensures BuildImage(samples).defaultHeight <= |Drain(BuildImage(samples)).0|
  {
    RowsCoverSamples(samples, |samples| / DefaultWidth);
  }
}

=== FILE: products.dfy ===
/**
 The display records of products/tmdb.py and the dictionaries their
 `get_dict` methods build. A Python dict that the displayers read by key is
 a `map<string, Value>`.
 */
module Products {
  import opened Errors

  /** The `Trailer` typed dict. */
  datatype Trailer = Trailer(name: string, site: string, link: string)

  /** The kinds of value the display dictionaries hold. */
  datatype Value =
    | VInt(i: int)
    | VStr(s: string)
    | VStrList(items: seq<string>)
    | VTrailers(trailers: seq<Trailer>)

  type Dict = map<string, Value>

  /** The arguments of the `TMDBAnimeDisplayInfo` constructor, stored as attributes. */
  datatype DisplayInfo = DisplayInfo(
    apiId: int,
    title: string,
    overview: string,
    genres: seq<string>,
    releaseDate: string,
    coverUrl: string)

  /**
   `TMDBAnimeDetailDisplayInfo`: the base attributes (set through
   `super().__init__`) and the four detail attributes.
   */
  datatype DetailDisplayInfo = DetailDisplayInfo(
    info: DisplayInfo,
    episodesCount: int,
    seasonsCount: int,
    status: string,
    trailers: seq<Trailer>)

  const ListKeys: set<string> := {"api_id", "title", "overview", "genres", "cover_url", "release_date"}

  const DetailOnlyKeys: set<string> := {"status", "trailers", "seasons_count", "episodes_count"}

  /** `TMDBAnimeDisplayInfo.get_dict`. */
  function GetDict(x: DisplayInfo): (d: Dict)
    ensures d.Keys == ListKeys
  {
    map[
      "api_id" := VInt(x.apiId),
      "title" := VStr(x.title),
      "overview" := VStr(x.overview),
      "genres" := VStrList(x.genres),
      "cover_url" := VStr(x.coverUrl),
      "release_date" := VStr(x.releaseDate)
    ]
  }

  /** `TMDBAnimeDetailDisplayInfo.get_dict`: `{**super().get_dict(), ...four more keys}`. */
  function GetDetailDict(x: DetailDisplayInfo): (d: Dict)
    ensures d.Keys == ListKeys + DetailOnlyKeys
    ensures forall k :: k in ListKeys ==> d[k] == GetDict(x.info)[k]
    ensures d["seasons_count"] == VInt(x.seasonsCount)
  {
    GetDict(x.info)
      + map[
          "status" := VStr(x.status),
          "trailers" := VTrailers(x.trailers),
          "seasons_count" := VInt(x.seasonsCount),
          "episodes_count" := VInt(x.episodesCount)
        ]
  }

  /** Reads a list record back out of a dictionary; None when a key is missing or mistyped. */
  function FromDict(d: Dict): Option<DisplayInfo> {
    if && "api_id" in d && d["api_id"].VInt?
       && "title" in d && d["title"].VStr?
       && "overview" in d && d["overview"].VStr?
       && "genres" in d && d["genres"].VStrList?
       && "release_date" in d && d["release_date"].VStr?
       && "cover_url" in d && d["cover_url"].VStr?
    then Some(DisplayInfo(d["api_id"].i, d["title"].s, d["overview"].s, d["genres"].items,
                          d["release_date"].s, d["cover_url"].s))
    else None
  }

  /** Reads a detail record back out of a dictionary. */
  function FromDetailDict(d: Dict): Option<DetailDisplayInfo> {
    match FromDict(d)
    case None => None
    case Some(info) =>
      if && "episodes_count" in d && d["episodes_count"].VInt?
         && "seasons_count" in d && d["seasons_count"].VInt?
         && "status" in d && d["status"].VStr?
         && "trailers" in d && d["trailers"].VTrailers?
      then Some(DetailDisplayInfo(info, d["episodes_count"].i, d["seasons_count"].i,
                                  d["status"].s, d["trailers"].trailers))
      else None
  }

  /** Every constructor argument of the list record is bound under its key: the dict gives it back whole. */
  lemma DictRoundTrip(x: DisplayInfo)
    ensures FromDict(GetDict(x)) == Some(x)
  {
  }

  /**
   The detail dict gives back the whole detail record, including
   `seasons_count` (stored under that key whatever the class annotation says).
   */
  lemma DetailDictRoundTrip(x: DetailDisplayInfo)
    ensures FromDetailDict(GetDetailDict(x)) == Some(x)
  {
    var d := GetDetailDict(x);
    assert FromDict(d) == FromDict(GetDict(x.info));
  }
}

=== FILE: strings.dfy ===
/**
 The handful of Python string operations the rendering code uses:
 `sep.join`, `str.replace('\n', ' ')`, `str(int)`, `c * n`.
 */
module Strings {

  /** Concatenation of a sequence of sequences (`''.join` on strings). */
  function Flatten<T>(xss: seq<seq<T>>): (r: seq<T>)
    ensures |xss| == 0 ==> r == []
  {
    if |xss| == 0 then [] else xss[0] + Flatten(xss[1..])
  }

  lemma {:induction false} FlattenAppend<T>(a: seq<seq<T>>, b: seq<seq<T>>)
    ensures Flatten(a + b) == Flatten(a) + Flatten(b)
  {
    if |a| == 0 {
      assert a + b == b;
    } else {
      assert (a + b)[1..] == a[1..] + b;
      FlattenAppend(a[1..], b);
    }
  }

  lemma FlattenSingle<T>(x: seq<T>)
    ensures Flatten([x]) == x
  {
    assert [x][1..] == [];
  }

  /** The first k pieces flatten to the first piece followed by the next k - 1. */
  lemma FlattenPrefix<T>(b: seq<seq<T>>, k: int)
    requires 0 < k <= |b|
    ensures Flatten(b[..k]) == b[0] + Flatten(b[1..][..k - 1])
  {
    assert b[..k][1..] == b[1..][..k - 1];
  }

  /** Python's `sep.join(items)`. */
  function Join(sep: string, items: seq<string>): (r: string)
    ensures |items| == 0 ==> r == ""
    ensures |items| == 1 ==> r == items[0]
  {
    if |items| == 0 then ""
    else if |items| == 1 then items[0]
    else items[0] + sep + Join(sep, items[1..])
  }

  /** Joining two non-empty lists puts one separator between the two joins, as `sep.join(a + b)` does. */
  lemma {:induction false} JoinAppend(sep: string, a: seq<string>, b: seq<string>)
    requires a != [] && b != []
    ensures Join(sep, a + b) == Join(sep, a) + sep + Join(sep, b)
  {
    if |a| > 1 {
      assert (a + b)[1..] == a[1..] + b;
      JoinAppend(sep, a[1..], b);
    } else {
      assert (a + b)[1..] == b;
    }
  }

  /** Python's `s.replace('\n', ' ')`. */
  function ReplaceNewlines(s: string): (r: string)
    ensures |r| == |s|
    ensures forall i :: 0 <= i < |s| ==> r[i] == (if s[i] == '\n' then ' ' else s[i])
  {
    if |s| == 0 then ""
    else [if s[0] == '\n' then ' ' else s[0]] + ReplaceNewlines(s[1..])
  }

  /** Python's `c * n`: empty when `n` is zero or negative. */
  function Repeat(c: char, n: int): (r: string)
    ensures |r| == (if n > 0 then n else 0)
    ensures forall i :: 0 <= i < |r| ==> r[i] == c
  {
    if n <= 0 then "" else [c] + Repeat(c, n - 1)
  }

  /** The smaller of two integers, as a slice end is clipped. */
  function Min(a: int, b: int): (m: int)
    ensures m <= a && m <= b && (m == a || m == b)
  {
    if a < b then a else b
  }

  predicate StartsWith(s: string, p: string) {
    |p| <= |s| && s[..|p|] == p
  }

  predicate IsDigit(c: char) {
    '0' <= c <= '9'
  }

  predicate IsDigits(s: string) {
    forall i :: 0 <= i < |s| ==> IsDigit(s[i])
  }

  function Digit(d: nat): (c: char)
    requires d < 10
    ensures IsDigit(c) && c as int - '0' as int == d
  {
    (d + '0' as int) as char
  }

  /** Python's `str(n)` for a non-negative integer: decimal, no leading zero. */
  function NatToString(n: nat): (s: string)
    ensures |s| > 0 && IsDigits(s)
    ensures |s| > 1 ==> s[0] != '0'
  {
    if n < 10 then [Digit(n)] else NatToString(n / 10) + [Digit(n % 10)]
  }

  /** Python's `str(i)` for any integer. */
  function IntToString(i: int): (s: string)
    ensures i >= 0 ==> s == NatToString(i)
    ensures i < 0 ==> s == "-" + NatToString(-i)
  {
    if i < 0 then "-" + NatToString(-i) else NatToString(i)
  }

  /** The value a decimal digit string denotes (Python's `int(s)` on digits). */
  function DecimalValue(s: string): nat
    requires IsDigits(s)
  {
    if |s| == 0 then 0
    else DecimalValue(s[..|s| - 1]) * 10 + (s[|s| - 1] as int - '0' as int)
  }

  /** `int(str(n)) == n`: the decimal text denotes the number it was made from. */
  lemma {:induction false} DecimalRoundTrip(n: nat)
    ensures DecimalValue(NatToString(n)) == n
  {
    var s := NatToString(n);
    if n >= 10 {
      DecimalRoundTrip(n / 10);
      assert s[..|s| - 1] == NatToString(n / 10);
    }
  }
}

=== FILE: text_wrap.dfy ===
/**
 The word wrapper of `TextBuilder` (presentation/anime_info_displayers.py):
 `_parse_content` normalises a field value to one line of text and
 `_get_content_lines` cuts it into lines at most `padding` wide, the first
 carrying a `"{title}: "` prefix, each break made after the nearest space
 before the cut point.

 The source has no hard-cut fallback. When a later chunk holds no space the
 backward scan runs off the start of the line (an IndexError, `NoSpace` here);
 when the only space in the first chunk is the prefix's own, the cursor goes
 back to 0 and the loop never ends (`NoProgress` here).
 */
module TextWrap {
  import opened Errors
  import opened Strings
  import opened Products

  /** `f"{title_map['title']}: "`: the title, then a colon and the space the first line may break after. */
  function Prefix(title: string): (p: string)
    ensures |p| == |title| + 2 && p[..|title|] == title
    ensures p[|title|] == ':' && p[|p| - 1] == ' '
  {
    title + ": "
  }

  /** The text `_parse_content` starts from, before newlines are replaced. */
  function RawText(v: Value): string {
    match v
    case VInt(i) => IntToString(i)
    case VStr(s) => s
    case VStrList(items) => Join(", ", items)
    case VTrailers(_) => ""
  }

  /**
   `_parse_content`: a list is joined with ", ", anything else goes through
   `str`, and every newline becomes a space. Joining trailer records (dicts,
   not strings) is a TypeError unless there are none to join.
   */
  function ParseContent(v: Value): (r: Result<string>)
    ensures r.Err? <==> v.VTrailers? && |v.trailers| > 0
    ensures r.Err? ==> r.fault == TypeError
    ensures r.Ok? ==> |r.value| == |RawText(v)|
    ensures r.Ok? ==> forall i :: 0 <= i < |r.value| ==>
              r.value[i] == (if RawText(v)[i] == '\n' then ' ' else RawText(v)[i])
    ensures r.Ok? ==> forall i :: 0 <= i < |r.value| ==> r.value[i] != '\n'
  {
    match v
    case VStrList(items) => Ok(ReplaceNewlines(Join(", ", items)))
    case VTrailers(trailers) => if |trailers| == 0 then Ok(ReplaceNewlines("")) else Err(TypeError)
    case VStr(s) => Ok(ReplaceNewlines(s))
    case VInt(i) => Ok(ReplaceNewlines(IntToString(i)))
  }

  /** Normalising text that holds no newline leaves it as it is. */
  lemma ParseContentKeepsCleanText(s: string)
    requires forall i :: 0 <= i < |s| ==> s[i] != '\n'
    ensures ParseContent(VStr(s)) == Ok(s)
  {
    var r := ReplaceNewlines(s);
    assert forall i :: 0 <= i < |s| ==> r[i] == s[i];
    assert r == s;
  }

  /** No space among `s[lo..hi]`. */
  predicate NoSpaceIn(s: string, lo: int, hi: int)
    requires 0 <= lo <= hi <= |s|
  {
    forall k :: lo <= k < hi ==> s[k] != ' '
  }

  /**
   The backward scan `while line[count] != " ": count -= 1`, started at
   position `end - 1`: the position of the last space before `end`, or None
   where Python's index would run off the start of the line.
   */
  function LastSpace(line: string, end: nat): (r: Option<nat>)
    requires end <= |line|
    ensures r.Some? ==> r.value < end && line[r.value] == ' ' && NoSpaceIn(line, r.value + 1, end)
    ensures r.None? ==> NoSpaceIn(line, 0, end)
  {
    if end == 0 then None
    else if line[end - 1] == ' ' then Some(end - 1)
    else LastSpace(line, end - 1)
  }

  /** A stretch of a slice holds no space exactly when the same stretch of the string holds none. */
  lemma NoSpaceInSlice(s: string, lo: int, hi: int, a: int, b: int)
    requires 0 <= lo <= hi <= |s| && 0 <= a <= b <= hi - lo
    ensures NoSpaceIn(s[lo..hi], a, b) <==> NoSpaceIn(s, lo + a, lo + b)
  {
    if NoSpaceIn(s[lo..hi], a, b) {
      forall k | lo + a <= k < lo + b
        ensures s[k] != ' '
      {
        assert s[k] == s[lo..hi][k - lo];
      }
    }
  }

  /** One line emitted by the loop and the value `printed_char` takes next. */
  datatype Cut = Cut(line: string, next: int)

  /**
   The loop body on the first pass (`printed_char == 0`): the prefix counts
   against the width. The backward scan over `prefix + chunk` finds the
   chunk's last space or, failing that, the prefix's own trailing space, so
   it cannot run off; but in that second case the cursor comes back to 0.
   */
  function FirstCut(title: string, content: string, padding: int): (c: Cut)
    requires 0 < |content|
    requires |Prefix(title)| <= padding
    ensures c.next >= 0
    ensures c.next == 0 <==> padding - |Prefix(title)| <= |content|
                              && NoSpaceIn(content, 0, padding - |Prefix(title)|)
    ensures c.line == Prefix(title) + content[..Min(c.next, |content|)]
    ensures 0 < |c.line| <= padding
    ensures c.next < |content| ==> c.line[|c.line| - 1] == ' '
    ensures (padding - |Prefix(title)| > |content| || padding == |Prefix(title)|
             || content[padding - |Prefix(title)| - 1] == ' ')
            ==> c.next == padding - |Prefix(title)|
    ensures c.next < padding - |Prefix(title)| ==>
              padding - |Prefix(title)| <= |content| && NoSpaceIn(content, c.next, padding - |Prefix(title)|)
    ensures |Prefix(title)| < padding && padding - |Prefix(title)| <= |content|
            && content[padding - |Prefix(title)| - 1] != ' '
            ==> c.next < padding - |Prefix(title)|
  {
    var prefix := Prefix(title);
    var offset := padding - |prefix|;
    var chunk := content[..Min(offset, |content|)];
    var line := prefix + chunk;
    assert 0 < offset <= |content| ==> line[|line| - 1] == content[offset - 1];
    if offset <= |content| && line[|line| - 1] != ' ' then
      var last := LastSpace(chunk, |chunk|);
      NoSpaceInSlice(content, 0, offset, if last.Some? then last.value + 1 else 0, offset);
      var j := if last.Some? then |prefix| + last.value else |prefix| - 1;
      // `count` is the space's negative Python index; the new cursor and the
      // cut length are the source's own arithmetic.
      var count := j - |line|;
      var newPrinted := offset + count + 1;
      var newOffset := newPrinted + |prefix|;
      assert newOffset == j + 1;
      assert line[..j + 1] == prefix + content[..newPrinted];
      Cut(line[..newOffset], newPrinted)
    else
      Cut(line, offset)
  }

  /**
   The loop body on a later pass: a chunk of `padding` characters from the
   cursor, cut back after its last space when it reaches the pad boundary
   and does not already end in one. Without a space the scan runs off.
   */
  function LaterCut(content: string, padding: int, printed: nat): (r: Result<Cut>)
    requires 0 < printed < |content|
    requires 0 < padding
    ensures r.Err? ==> r.fault == NoSpace
    ensures r.Err? <==> printed + padding <= |content| && NoSpaceIn(content, printed, printed + padding)
    ensures r.Ok? ==> r.value.next > printed
    ensures r.Ok? ==> r.value.line == content[printed .. Min(r.value.next, |content|)]
    ensures r.Ok? ==> 0 < |r.value.line| <= padding
    ensures r.Ok? && r.value.next < |content| ==> r.value.line[|r.value.line| - 1] == ' '
    ensures r.Ok? && (printed + padding > |content| || content[printed + padding - 1] == ' ')
            ==> r.value.next == printed + padding
    ensures r.Ok? && r.value.next < printed + padding ==>
              printed + padding <= |content| && NoSpaceIn(content, r.value.next, printed + padding)
    ensures r.Ok? && printed + padding <= |content| && content[printed + padding - 1] != ' '
            ==> r.value.next < printed + padding
  {
    var offset := printed + padding;
    var line := content[printed .. Min(offset, |content|)];
    if offset <= |content| && line[|line| - 1] != ' ' then
      match LastSpace(line, |line|)
      case None =>
        NoSpaceInSlice(content, printed, offset, 0, padding);
        Err(NoSpace)
      case Some(j) =>
        assert content[printed + j] == ' ';
        NoSpaceInSlice(content, printed, offset, j + 1, padding);
        var count := j - |line|;
        var newPrinted := offset + count + 1;
        var newOffset := newPrinted - printed;
        assert newOffset == j + 1;
        assert line[..j + 1] == content[printed..newPrinted];
        Ok(Cut(line[..newOffset], newPrinted))
    else
      Ok(Cut(line, offset))
  }

  /** A later chunk `content[p : p+padding]` that reaches the pad boundary and holds no space. */
  predicate BlockedChunk(content: string, padding: int, p: int) {
    0 < p && 0 <= padding && p + padding <= |content| && NoSpaceIn(content, p, p + padding)
  }

  /** One pass of the `while printed_char < len(content)` body. */
  function Step(title: string, content: string, padding: int, printed: nat): (r: Result<Cut>)
    requires printed < |content|
    requires |Prefix(title)| <= padding
  {
    if printed == 0 then Ok(FirstCut(title, content, padding)) else LaterCut(content, padding, printed)
  }

  /** Every line is non-empty and at most `padding` wide. */
  predicate Bounded(lines: seq<string>, padding: int) {
    forall i :: 0 <= i < |lines| ==> 0 < |lines[i]| <= padding
  }

  /** Every line but the last ends with a space. */
  predicate SpaceEnded(lines: seq<string>) {
    forall i :: 0 <= i < |lines| - 1 ==> 0 < |lines[i]| && lines[i][|lines[i]| - 1] == ' '
  }

  lemma ConsLine(line: string, rest: seq<string>, padding: int)
    requires 0 < |line| <= padding && Bounded(rest, padding) && SpaceEnded(rest)
    requires rest != [] ==> line[|line| - 1] == ' '
    ensures Bounded([line] + rest, padding) && SpaceEnded([line] + rest)
  {
    var lines := [line] + rest;
    forall i | 1 <= i < |lines|
      ensures lines[i] == rest[i - 1]
    {
    }
  }

  /**
   The loop of `_get_content_lines` from `printed_char == printed` on: every
   line is at most `padding` wide and every line but the last ends with the
   space it broke after.
   */
  function WrapFrom(title: string, content: string, padding: int, printed: nat): (r: Result<seq<string>>)
    requires |Prefix(title)| <= padding
    ensures printed >= |content| ==> r == Ok([])
    ensures r.Err? ==> r.fault == NoSpace || r.fault == NoProgress
    ensures r.Ok? ==> Bounded(r.value, padding) && SpaceEnded(r.value)
    decreases |content| - printed
  {
    if printed >= |content| then Ok([])
    else
      var cut :- Step(title, content, padding, printed);
      if cut.next <= printed then Err(NoProgress)
      else
        var rest :- WrapFrom(title, content, padding, cut.next);
        ConsLine(cut.line, rest, padding);
        Ok([cut.line] + rest)
  }

  /**
   The lines put back together are exactly the prefix (on the first line)
   followed by the content from the cursor on: breaking never loses or adds
   a character.
   */
  lemma {:induction false} WrapRoundTrip(title: string, content: string, padding: int, printed: nat)
    requires |Prefix(title)| <= padding
    requires printed < |content|
    requires WrapFrom(title, content, padding, printed).Ok?
    ensures Flatten(WrapFrom(title, content, padding, printed).value)
            == (if printed == 0 then Prefix(title) else "") + content[printed..]
    ensures |WrapFrom(title, content, padding, printed).value| > 0
    ensures printed == 0 ==> StartsWith(WrapFrom(title, content, padding, printed).value[0], Prefix(title))
    decreases |content| - printed
  {
    var cut := Step(title, content, padding, printed).value;
    var rest := WrapFrom(title, content, padding, cut.next).value;
    assert WrapFrom(title, content, padding, printed).value == [cut.line] + rest;
    if cut.next < |content| {
      WrapRoundTrip(title, content, padding, cut.next);
    }
    JoinCut(if printed == 0 then Prefix(title) else "", content, printed, cut.next, cut.line, rest);
  }

  /** A cut line followed by the lines after it covers the content from the cut's start. */
  lemma JoinCut(pre: string, content: string, printed: nat, next: int, line: string, rest: seq<string>)
    requires printed < next && printed <= |content|
    requires line == pre + content[printed .. Min(next, |content|)]
    requires next >= |content| ==> rest == []
    requires next < |content| ==> Flatten(rest) == content[next..]
    ensures Flatten([line] + rest) == pre + content[printed..]
    ensures StartsWith(([line] + rest)[0], pre)
  {
    var lines := [line] + rest;
    assert lines[1..] == rest;
    assert Flatten(lines) == line + Flatten(rest);
    if next < |content| {
      assert content[printed..] == content[printed..next] + content[next..];
    }
  }

  /**
   When the loop fails: it hangs exactly when the first chunk (after the
   prefix) reaches the pad boundary without a space, and a later failure is
   always a chunk without a space that makes the backward scan run off.
   */
  lemma {:induction false} WrapFaults(title: string, content: string, padding: int, printed: nat)
    requires |Prefix(title)| <= padding
    ensures printed > 0 ==> WrapFrom(title, content, padding, printed) != Err(NoProgress)
    ensures printed == 0 < |content| ==>
              (WrapFrom(title, content, padding, printed) == Err(NoProgress)
               <==> padding - |Prefix(title)| <= |content| && NoSpaceIn(content, 0, padding - |Prefix(title)|))
    ensures WrapFrom(title, content, padding, printed) == Err(NoSpace) ==>
              exists p :: BlockedChunk(content, padding, p)
    decreases |content| - printed
  {
    if printed < |content| {
      match Step(title, content, padding, printed)
      case Err(_) =>
        assert BlockedChunk(content, padding, printed);
      case Ok(cut) =>
        if cut.next > printed {
          WrapFaults(title, content, padding, cut.next);
        }
    }
  }

  /**
   Every break is as late as the width allows: after each line but the last,
   the text still to come reaches the end of the line's `padding`-wide window
   and holds no space inside it, so the line ended at the window's last space.
   */
  predicate Greedy(lines: seq<string>, padding: int) {
    forall i :: 0 <= i < |lines| - 1 ==>
      && |lines[i]| <= padding <= |lines[i]| + |Flatten(lines[i + 1..])|
      && NoSpaceIn(Flatten(lines[i + 1..]), 0, padding - |lines[i]|)
  }

  lemma ConsGreedy(line: string, rest: seq<string>, padding: int)
    requires Greedy(rest, padding)
    requires rest != [] ==>
               && |line| <= padding <= |line| + |Flatten(rest)|
               && NoSpaceIn(Flatten(rest), 0, padding - |line|)
    ensures Greedy([line] + rest, padding)
  {
    var lines := [line] + rest;
    assert lines[1..] == rest;
    forall i | 1 <= i < |lines| - 1
      ensures lines[i] == rest[i - 1] && lines[i + 1..] == rest[i..]
    {
    }
  }

  /** The loop breaks each line after the last space of its window, never earlier. */
  lemma {:induction false} WrapGreedy(title: string, content: string, padding: int, printed: nat)
    requires |Prefix(title)| <= padding
    requires WrapFrom(title, content, padding, printed).Ok?
    ensures Greedy(WrapFrom(title, content, padding, printed).value, padding)
    decreases |content| - printed
  {
    if printed < |content| {
      var cut := Step(title, content, padding, printed).value;
      var rest := WrapFrom(title, content, padding, cut.next).value;
      assert WrapFrom(title, content, padding, printed).value == [cut.line] + rest;
      WrapGreedy(title, content, padding, cut.next);
      if cut.next < |content| {
        WrapRoundTrip(title, content, padding, cut.next);
        CutLeavesNoSpace(title, content, padding, printed);
      }
      ConsGreedy(cut.line, rest, padding);
    }
  }

  /** After a cut, the text that follows holds no space within the cut line's window. */
  lemma CutLeavesNoSpace(title: string, content: string, padding: int, printed: nat)
    requires |Prefix(title)| <= padding && printed < |content|
    requires Step(title, content, padding, printed).Ok?
    requires printed < Step(title, content, padding, printed).value.next < |content|
    ensures var cut := Step(title, content, padding, printed).value;
            && |cut.line| <= padding <= |cut.line| + |content[cut.next..]|
            && NoSpaceIn(content[cut.next..], 0, padding - |cut.line|)
  {
    var cut := Step(title, content, padding, printed).value;
    var end := if printed == 0 then padding - |Prefix(title)| else printed + padding;
    assert |cut.line| == padding - (end - cut.next);
    assert content[cut.next..] == content[cut.next..|content|];
    NoSpaceInSlice(content, cut.next, |content|, 0, end - cut.next);
  }

  /**
   The last line was not cut back: it is shorter than the width, or it fills
   the width and ends in a space. A full window ending in anything else
   would have been broken at its last space.
   */
  predicate LastLineUncut(lines: seq<string>, padding: int) {
    lines != [] ==>
      var last := lines[|lines| - 1];
      |last| < padding || (0 < |last| && last[|last| - 1] == ' ')
  }

  /** The loop's last line ends the content without a forced break. */
  lemma {:induction false} WrapLastLine(title: string, content: string, padding: int, printed: nat)
    requires |Prefix(title)| <= padding
    requires WrapFrom(title, content, padding, printed).Ok?
    ensures LastLineUncut(WrapFrom(title, content, padding, printed).value, padding)
    decreases |content| - printed
  {
    if printed < |content| {
      var cut := Step(title, content, padding, printed).value;
      var rest := WrapFrom(title, content, padding, cut.next).value;
      assert WrapFrom(title, content, padding, printed).value == [cut.line] + rest;
      WrapLastLine(title, content, padding, cut.next);
      if rest == [] {
        FinalCutUncut(title, content, padding, printed);
      } else {
        assert ([cut.line] + rest)[|rest|] == rest[|rest| - 1];
      }
    }
  }

  /** A cut that reaches the end of the content was not cut back. */
  lemma FinalCutUncut(title: string, content: string, padding: int, printed: nat)
    requires |Prefix(title)| <= padding && printed < |content|
    requires WrapFrom(title, content, padding, printed).Ok?
    requires Step(title, content, padding, printed).Ok?
    requires WrapFrom(title, content, padding, Step(title, content, padding, printed).value.next) == Ok([])
    ensures LastLineUncut([Step(title, content, padding, printed).value.line], padding)
  {
    var cut := Step(title, content, padding, printed).value;
    assert cut.next >= |content|;
  }

  /**
   `_get_content_lines`: normalise the value, then wrap it. Empty content
   gives no lines at all, not even the prefix. When the wrap fails (a full
   window with no space in it) is stated by `WrapFaults`.
   */
  function ContentLines(title: string, v: Value, padding: int): (r: Result<seq<string>>)
    requires |Prefix(title)| <= padding
    ensures r.Err? ==> r.fault in {TypeError, NoSpace, NoProgress}
    ensures ParseContent(v).Err? ==> r == Err(TypeError)
    ensures ParseContent(v).Ok? && r.Ok? ==>
              (r.value == [] <==> ParseContent(v).value == "")
    ensures ParseContent(v).Ok? && r.Ok? && ParseContent(v).value != "" ==>
              StartsWith(r.value[0], Prefix(title))
              && Flatten(r.value) == Prefix(title) + ParseContent(v).value
    ensures r.Ok? ==> Bounded(r.value, padding) && SpaceEnded(r.value) && Greedy(r.value, padding)
    ensures r.Ok? ==> LastLineUncut(r.value, padding)
  {
    match ParseContent(v)
    case Err(f) => Err(f)
    case Ok(content) =>
      WrapWhole(title, content, padding);
      WrapFrom(title, content, padding, 0)
  }

  /** The whole loop, from `printed_char = 0`: round trip, and no lines exactly for empty content. */
  lemma WrapWhole(title: string, content: string, padding: int)
    requires |Prefix(title)| <= padding
    ensures WrapFrom(title, content, padding, 0).Ok? ==>
              (WrapFrom(title, content, padding, 0).value == [] <==> content == "")
    ensures WrapFrom(title, content, padding, 0).Ok? && content != "" ==>
              StartsWith(WrapFrom(title, content, padding, 0).value[0], Prefix(title))
              && Flatten(WrapFrom(title, content, padding, 0).value) == Prefix(title) + content
    ensures WrapFrom(title, content, padding, 0).Ok? ==> Greedy(WrapFrom(title, content, padding, 0).value, padding)
    ensures WrapFrom(title, content, padding, 0).Ok? ==> LastLineUncut(WrapFrom(title, content, padding, 0).value, padding)
  {
    if WrapFrom(title, content, padding, 0).Ok? {
      WrapGreedy(title, content, padding, 0);
      WrapLastLine(title, content, padding, 0);
    }
    if content != "" && WrapFrom(title, content, padding, 0).Ok? {
      WrapRoundTrip(title, content, padding, 0);
      assert content[0..] == content;
    }
  }

  /** Text that fits beside its prefix with room to spare comes back as one line, unchanged. */
  lemma SingleLineFits(title: string, content: string, padding: int)
    requires |Prefix(title)| <= padding
    requires 0 < |content| && |Prefix(title)| + |content| < padding
    ensures WrapFrom(title, content, padding, 0) == Ok([Prefix(title) + content])
  {
    var offset := padding - |Prefix(title)|;
    assert content[..Min(offset, |content|)] == content;
    assert Step(title, content, padding, 0) == Ok(Cut(Prefix(title) + content, offset));
    assert WrapFrom(title, content, padding, offset) == Ok([]);
    assert [Prefix(title) + content] + [] == [Prefix(title) + content];
  }

  /** A field that fits the width exactly still takes the break branch and hangs (`offset <= len(content)`). */
  lemma ExactFitHangs()
    ensures ContentLines("ID", VStr("12345"), 9) == Err(NoProgress)
  {
    assert NoSpaceIn("12345", 0, 5);
  }

  /**
   An exact fit hangs only for text without a space: with one, the break
   branch cuts after it and the rest follows on a second line.
   */
  lemma ExactFitWithSpaceBreaks()
    ensures ContentLines("ID", VStr("12 45"), 9) == Ok(["ID: 12 ", "45"])
  {
    ParseContentKeepsCleanText("12 45");
    var first := FirstCut("ID", "12 45", 9);
    assert LastSpace("12 45", 5) == Some(2);
    assert first == Cut("ID: 12 ", 3);
    assert "12 45"[3..5] == "45";
    assert LaterCut("12 45", 9, 3) == Ok(Cut("45", 12));
    assert WrapFrom("ID", "12 45", 9, 12) == Ok([]);
    WrapUnfolds("ID", "12 45", 9, 3, Cut("45", 12), []);
    assert ["45"] + [] == ["45"];
    WrapUnfolds("ID", "12 45", 9, 0, first, ["45"]);
    assert ["ID: 12 "] + ["45"] == ["ID: 12 ", "45"];
  }

  /** A pass that moves the cursor forward puts its line before the lines that follow. */
  lemma WrapUnfolds(title: string, content: string, padding: int, printed: nat, cut: Cut, rest: seq<string>)
    requires |Prefix(title)| <= padding && printed < |content|
    requires Step(title, content, padding, printed) == Ok(cut) && cut.next > printed
    requires WrapFrom(title, content, padding, cut.next) == Ok(rest)
    ensures WrapFrom(title, content, padding, printed) == Ok([cut.line] + rest)
  {
  }

  /** One short field at a wide pad is one line. */
  lemma ShortFieldOneLine()
    ensures ContentLines("ID", VStr("12345"), 20) == Ok(["ID: 12345"])
  {
    ParseContentKeepsCleanText("12345");
    SingleLineFits("ID", "12345", 20);
    assert Prefix("ID") + "12345" == "ID: 12345";
  }

  /** There is no hard cut: forty letters without a space at width 10 hang on the first line. */
  lemma NoHardCut()
    ensures ContentLines("Title", VStr(Repeat('a', 40)), 10) == Err(NoProgress)
  {
    assert NoSpaceIn(Repeat('a', 40), 0, 3);
  }

  /**
   A later chunk that reaches the pad boundary without a space makes the
   backward scan run off the line: the loop fails there with NoSpace.
   */
  lemma BlockedLaterChunkFails(title: string, content: string, padding: int, p: nat)
    requires |Prefix(title)| <= padding
    requires BlockedChunk(content, padding, p) && p < |content|
    ensures WrapFrom(title, content, padding, p) == Err(NoSpace)
  {
    assert LaterCut(content, padding, p) == Err(NoSpace);
  }
}

=== FILE: tmdb_service.dfy ===
/**
 The pure record mapping of services/tmdb.py: API payloads in, display
 dictionaries out, and the status rule that turns an error response into a
 `DefaultException`. The HTTP session, headers and `gather` are not modelled:
 the fetched payloads are parameters.
 */
module TmdbService {
  import opened Errors
  import opened Products

  /** `_default_image_uri`. */
  const DefaultImageUri: string := "https://image.tmdb.org/t/p/w500"

  /** `_default_youtube_uri`. */
  const DefaultYoutubeUri: string := "https://www.youtube.com/watch?v="

  /** An entry of the genre list (`Genre`). */
  datatype Genre = Genre(id: int, name: string)

  /** The fields of a discover result (`AnimeInfo`) that the mapping reads. */
  datatype AnimeInfo = AnimeInfo(
    id: int,
    name: string,
    overview: string,
    genreIds: seq<int>,
    posterPath: string,
    firstAirDate: string)

  /** The discover payload: one page of results. */
  datatype DiscoverPage = DiscoverPage(results: seq<AnimeInfo>, page: int, totalPages: int)

  /** The fields of a `/tv/{id}` payload the detail mapping reads. */
  datatype Details = Details(
    id: int,
    name: string,
    overview: string,
    genres: seq<Genre>,
    firstAirDate: string,
    posterPath: string,
    numberOfEpisodes: int,
    numberOfSeasons: int,
    status: string)

  /** An entry of the `/tv/{id}/videos` results. */
  datatype Video = Video(key: string, name: string, site: string)

  /** `AnimeListReturn`. */
  datatype AnimeListReturn = AnimeListReturn(animeList: seq<Dict>, page: int, totalPages: int)

  /**
   `[g["name"] for g in genres if g["id"] in anime["genre_ids"]]`: the names of
   the genre-table entries whose id the anime lists, in table order.
   */
  function GenreNames(genres: seq<Genre>, ids: seq<int>): (r: seq<string>)
    ensures |r| <= |genres|
    ensures forall x :: x in r <==> exists g :: g in genres && g.id in ids && g.name == x
  {
    if |genres| == 0 then []
    else
      var rest := GenreNames(genres[1..], ids);
      assert forall g :: g in genres[1..] ==> g in genres;
      if genres[0].id in ids then [genres[0].name] + rest else rest
  }

  /** The names follow the genre table: splitting the table splits the result the same way. */
  lemma {:induction false} GenreNamesFollowTable(a: seq<Genre>, b: seq<Genre>, ids: seq<int>)
    ensures GenreNames(a + b, ids) == GenreNames(a, ids) + GenreNames(b, ids)
  {
    if |a| == 0 {
      assert a + b == b;
    } else {
      assert (a + b)[1..] == a[1..] + b;
      GenreNamesFollowTable(a[1..], b, ids);
    }
  }

  /**
   Only which ids the anime lists matters: their order and repetitions do not
   change the names, because the table is what is walked.
   */
  lemma {:induction false} GenreNamesIgnoreIdOrder(genres: seq<Genre>, ids1: seq<int>, ids2: seq<int>)
    requires forall x :: x in ids1 <==> x in ids2
    ensures GenreNames(genres, ids1) == GenreNames(genres, ids2)
  {
    if |genres| > 0 {
      GenreNamesIgnoreIdOrder(genres[1..], ids1, ids2);
    }
  }

  /** An id that no table entry carries is dropped without trace. */
  lemma {:induction false} UnknownGenreIdDropped(genres: seq<Genre>, ids: seq<int>, unknown: int)
    requires forall g :: g in genres ==> g.id != unknown
    ensures GenreNames(genres, ids + [unknown]) == GenreNames(genres, ids)
  {
    if |genres| > 0 {
      assert genres[0] in genres;
      assert forall g :: g in genres[1..] ==> g in genres;
      UnknownGenreIdDropped(genres[1..], ids, unknown);
    }
  }

  /** The record built for one discover result inside `_parse_fetched_animes`. */
  function ListItem(anime: AnimeInfo, genres: seq<Genre>): (x: DisplayInfo)
    ensures x.apiId == anime.id && x.title == anime.name && x.overview == anime.overview
    ensures x.releaseDate == anime.firstAirDate
    ensures forall n :: n in x.genres <==> exists g :: g in genres && g.id in anime.genreIds && g.name == n
    ensures |x.coverUrl| == |DefaultImageUri| + |anime.posterPath|
    ensures x.coverUrl[..|DefaultImageUri|] == DefaultImageUri && x.coverUrl[|DefaultImageUri|..] == anime.posterPath
  {
    DisplayInfo(
      anime.id,
      anime.name,
      anime.overview,
      GenreNames(genres, anime.genreIds),
      anime.firstAirDate,
      DefaultImageUri + anime.posterPath)
  }

  /** `_parse_fetched_animes` once the genre list is fetched: one dict per result, in order. */
  function ParseFetchedAnimes(animes: seq<AnimeInfo>, genres: seq<Genre>): (r: seq<Dict>)
    ensures |r| == |animes|
    ensures forall i :: 0 <= i < |animes| ==> FromDict(r[i]) == Some(ListItem(animes[i], genres))
  {
    if |animes| == 0 then []
    else
      DictRoundTrip(ListItem(animes[0], genres));
      [GetDict(ListItem(animes[0], genres))] + ParseFetchedAnimes(animes[1..], genres)
  }

  /** `get_anime_list` once both payloads are fetched. */
  function GetAnimeList(fetched: DiscoverPage, genres: seq<Genre>): (r: AnimeListReturn)
    ensures r.page == fetched.page && r.totalPages == fetched.totalPages
    ensures |r.animeList| == |fetched.results|
    ensures forall i :: 0 <= i < |fetched.results| ==> FromDict(r.animeList[i]) == Some(ListItem(fetched.results[i], genres))
  {
    AnimeListReturn(ParseFetchedAnimes(fetched.results, genres), fetched.page, fetched.totalPages)
  }

  /** The trailer comprehension of `get_anime_details`: YouTube videos only, with a watch link. */
  function YouTubeTrailers(videos: seq<Video>): (r: seq<Trailer>)
    ensures |r| <= |videos|
    ensures forall t :: t in r ==> t.site == "YouTube"
    ensures forall t :: t in r ==> exists v :: v in videos && v.site == "YouTube" && t.name == v.name
                                           && t.link == DefaultYoutubeUri + v.key
    ensures forall v :: v in videos && v.site == "YouTube" ==> Trailer(v.name, v.site, DefaultYoutubeUri + v.key) in r
  {
    if |videos| == 0 then []
    else
      var rest := YouTubeTrailers(videos[1..]);
      assert forall v :: v in videos[1..] ==> v in videos;
      assert forall v :: v in videos ==> v == videos[0] || v in videos[1..];
      var v := videos[0];
      if v.site == "YouTube" then [Trailer(v.name, v.site, DefaultYoutubeUri + v.key)] + rest else rest
  }

  /** The filter keeps the order of the videos: it distributes over concatenation. */
  lemma {:induction false} YouTubeTrailersKeepOrder(a: seq<Video>, b: seq<Video>)
    ensures YouTubeTrailers(a + b) == YouTubeTrailers(a) + YouTubeTrailers(b)
  {
    if |a| == 0 {
      assert a + b == b;
    } else {
      assert (a + b)[1..] == a[1..] + b;
      YouTubeTrailersKeepOrder(a[1..], b);
    }
  }

  /** The video key is recoverable from every link: the link is the watch URI followed by the key. */
  lemma {:induction false} TrailerKeysRecoverable(videos: seq<Video>)
    ensures forall t :: t in YouTubeTrailers(videos) ==>
              |DefaultYoutubeUri| <= |t.link| && t.link[..|DefaultYoutubeUri|] == DefaultYoutubeUri
              && exists v :: v in videos && v.site == "YouTube" && v.key == t.link[|DefaultYoutubeUri|..]
  {
    forall t | t in YouTubeTrailers(videos)
      ensures |DefaultYoutubeUri| <= |t.link| && t.link[..|DefaultYoutubeUri|] == DefaultYoutubeUri
      ensures exists v :: v in videos && v.site == "YouTube" && v.key == t.link[|DefaultYoutubeUri|..]
    {
      var v :| v in videos && v.site == "YouTube" && t.name == v.name && t.link == DefaultYoutubeUri + v.key;
      assert t.link[|DefaultYoutubeUri|..] == v.key;
    }
  }

  /** `get_anime_details` once both payloads are fetched. */
  function AnimeDetails(details: Details, videos: seq<Video>): (d: Dict)
    ensures FromDetailDict(d).Some?
    ensures FromDetailDict(d).value.info.apiId == details.id
    ensures FromDetailDict(d).value.info.title == details.name
    ensures FromDetailDict(d).value.info.overview == details.overview
    ensures FromDetailDict(d).value.info.releaseDate == details.firstAirDate
    ensures FromDetailDict(d).value.status == details.status
    ensures FromDetailDict(d).value.info.genres == seq(|details.genres|, i requires 0 <= i < |details.genres| => details.genres[i].name)
    ensures FromDetailDict(d).value.episodesCount == details.numberOfEpisodes
    ensures FromDetailDict(d).value.seasonsCount == details.numberOfSeasons
    ensures FromDetailDict(d).value.trailers == YouTubeTrailers(videos)
    ensures FromDetailDict(d).value.info.coverUrl == DefaultImageUri + details.posterPath
  {
    var x := DetailDisplayInfo(
      DisplayInfo(
        details.id,
        details.name,
        details.overview,
        seq(|details.genres|, i requires 0 <= i < |details.genres| => details.genres[i].name),
        details.firstAirDate,
        DefaultImageUri + details.posterPath),
      details.numberOfEpisodes,
      details.numberOfSeasons,
      details.status,
      YouTubeTrailers(videos));
    DetailDictRoundTrip(x);
    GetDetailDict(x)
  }

  /** `get_anime_list_by_name` is a stub: whatever the name, an empty page 0 of 0. */
  function GetAnimeListByName(name: string): (r: AnimeListReturn)
    ensures r.animeList == [] && r.page == 0 && r.totalPages == 0
  {
    AnimeListReturn([], 0, 0)
  }

  /** The context dict of the raised `DefaultException`. */
  datatype ErrorContext<V> = ErrorContext(status: int, url: string, reqBody: Option<map<string, V>>, resBody: map<string, V>)

  datatype DefaultException<V> = DefaultException(message: V, context: ErrorContext<V>)

  /** What `_raise_for_status` does: return, raise `DefaultException`, or fail on the missing message key. */
  datatype StatusCheck<V> = Passed | Raised(exception: DefaultException<V>) | MissingKey(key: string)

  function RaiseForStatus<V>(status: int, url: string, reqBody: Option<map<string, V>>, resBody: map<string, V>): (r: StatusCheck<V>)
    ensures r.Passed? <==> status < 400
    ensures r.MissingKey? <==> status >= 400 && "status_message" !in resBody
    ensures r.Raised? ==> r.exception.message == resBody["status_message"]
    ensures r.Raised? ==> r.exception.context == ErrorContext(status, url, reqBody, resBody)
  {
    if status >= 400 then
      if "status_message" in resBody
      then Raised(DefaultException(resBody["status_message"], ErrorContext(status, url, reqBody, resBody)))
      else MissingKey("status_message")
    else Passed
  }
}
